=== FILE: README.md ===
# Video surveillance system: a Dafny model of its decision rules

The system has two programs. A central coordinator (`server.py`) keeps a
registry of edge cameras in sqlite, records each camera's stream with an
ffmpeg process, deletes old recording segments, probes every camera for
health, and keeps an event log. An edge node (`pi_camera_client.py`) runs on
a Raspberry Pi beside a Hikvision camera. It holds the latest frame in a
slot, runs a motion detector, serves the stream, a snapshot, zoom control
and its recent motion events behind HTTP Basic authentication, and
registers itself with the coordinator at start-up.

The model keeps the decision rules under that plumbing. Every I/O outcome
is a parameter: probe replies, spawn results, `stat`/`unlink` failures,
frame reads, the motion verdict, HTTP replies and the clock. The
coordinator's state is one immutable value (`ServerState.Coordinator`). It
holds the cameras table as an id-keyed map, the events table as a sequence
in insertion order, the recording-process table, the plaintext password
cache, the recordings directory and whether the health thread still runs.

Modules and files:

- `common.dfy` (`Common`): `Option` with `dict.get` defaults, Python's
  truth test, `str()` of an integer with its inverse, and `s[start:]`.
- `server_state.dfy` (`ServerState`): the coordinator's tables and
  invariants (unique `pi_user`, autoincrement ids), `_log_event`,
  `get_camera_by_user`.
- `recording.dfy` (`Recording`): `start_recording` / `stop_recording` on
  the process table.
- `retention.dfy` (`Retention`): `cleanup_old_recordings`. There is a
  recursive reference definition and the two nested loops of the source,
  proved equal.
- `registry.dfy` (`Registry`): `api_register`, `api_add_camera`,
  `api_update_camera`, `api_delete_camera`.
- `event_log.dfy` (`EventLog`): `api_events_list` and `api_events_create`.
- `health.dfy` (`Health`): one pass of `health_check_loop`, and whole
  cycles including the retention sweep.
- `frame_source.dfy` (`FrameSource`): `CameraStream` and the `/snapshot`
  and `/stream` handlers.
- `motion.dfy` (`Motion`): `MotionDetector._detect_loop`.
- `edge_api.dfy` (`EdgeApi`): `check_auth`/`require_auth`,
  `camera_set_zoom`, `/zoom`, `/events`.
- `registration.dfy` (`Registration`): `register_with_server`.

Where the code and its design description disagree, the model follows the
code:

- Registration marks a camera online at once. It does not wait for the
  first health probe.
- The retention sweep catches no error. A `stat` or `unlink` that raises
  escapes `cleanup_old_recordings` and ends the health thread. The model
  gives each file a `fault` flag and the coordinator a `healthRunning`
  flag.
- The sweep walks every directory under the recordings root, not only the
  camera directories.
- Deleting a camera logs `recording_stop`, and the same delete then removes
  that row with the camera's other events.
- Re-registering an existing `pi_user` updates the cached plaintext
  password but not the stored password hash.
- The events push endpoint checks no credentials.

## Model

| member | source | states |
|---|---|---|
| ServerState.Boot | server.py:75-107 | Start-up over a persisted database: the tables are created only if absent, so the camera rows, the id counter and the events come back unchanged. The process table and the password cache start empty, the invariants hold, and the health thread runs. |
| ServerState.FirstBootIsEmpty | server.py:75-107 | On the first start, with no database yet, every table is empty and the invariants hold. |
| ServerState.RestartForgetsSecrets | server.py:231-232 | After a restart a persisted camera keeps its row, but its plaintext password is no longer cached and it has no recording process until something starts one. |
| ServerState.LogEvent | server.py:235-244 | Logging appends exactly one row (camera, kind, message, now) at the end and changes nothing else. |
| ServerState.CameraByUser | server.py:128-132 | The lookup finds a row exactly when some camera has that `pi_user`, and the row it finds has it. |
| ServerState.EventsExcept | server.py:423 | Deleting a camera's events keeps every other row with its multiplicity and removes all of that camera's rows. |
| Recording.StartRecording | server.py:138-187 | A running process makes the call a no-op. A failed spawn changes nothing. A successful spawn installs a running handle and appends one `recording_start` row. Afterwards the camera records iff it did before or the spawn succeeded. |
| Recording.StopRecording | server.py:190-201 | The entry is always removed and other entries are unchanged. `recording_stop` is appended iff the removed process was running. |
| Recording.ProcessExited | server.py:142-145 | An exited process stays in the table and `poll()` reports it dead; other entries are unchanged. |
| Recording.StartTwiceSpawnsOnce | server.py:142-147 | A second start while the first process runs is a no-op, so at most one `recording_start` row is added in all. |
| Recording.StopUnknownIsNoop | server.py:192-201 | Stopping an id without an entry changes nothing. |
| Recording.StartThenStop | server.py:138-201 | A start then a stop leaves the table without the camera and logs exactly one start row and one stop row. |
| Recording.CrashThenRestart | server.py:138-187 | After the process dies, the next start installs a new running handle and logs one start row. |
| Retention.SweepFiles | server.py:209-213 | Walking one directory: every file is either kept or counted as deleted. |
| Retention.SweepStore | server.py:206-213 | Walking the root: the entry count is unchanged. |
| Retention.SweepFilesCompletes | server.py:209-213 | One directory's walk finishes iff no segment in it fails `stat`/`unlink`. |
| Retention.SweepCompletes | server.py:204-216 | The whole sweep finishes iff no segment in any directory fails. |
| Retention.SweepKeepsEntries | server.py:206-208 | Every root entry keeps its place, name and kind. |
| Retention.SweepFilesOnlyDeletesExpired | server.py:209-212 | In one directory the sweep keeps only files that were there, and keeps every file that is not an expired segment, even when it aborts. |
| Retention.SweepOnlyDeletesExpired | server.py:204-216 | Across the root the sweep deletes nothing but expired segments inside directories, even when it aborts. |
| Retention.SweepDirectory | server.py:209-213 | The inner loop with its counter computes exactly the reference walk of one directory. |
| Retention.CleanupOldRecordings | server.py:204-216 | The two nested loops with the counter compute exactly the reference sweep at cutoff `now - maxAgeHours*3600`. |
| Retention.KeepFresh | server.py:209-212 | The files kept are exactly the files that are not expired segments. |
| Retention.CountExpired | server.py:211-213 | The count is zero iff no file is an expired segment, and is at most the number of files. |
| Retention.SweepFilesFaultless | server.py:209-213 | With no failures, a directory keeps exactly its non-expired files and counts its expired segments. |
| Retention.SweepDeletesExactlyExpired | server.py:204-216 | With no failures, the sweep finishes, every directory keeps exactly its non-expired files, plain files stay, and the count is the number of expired segments. |
| Retention.SweepCountMatchesRemoved | server.py:213-216 | The reported count equals the number of files that disappeared, whether or not the sweep finished. |
| Retention.KeepFreshHasNoExpired | server.py:211-212 | After the filter no expired segment is left, and filtering again changes nothing. |
| Retention.KeepFreshFaultless | server.py:209-212 | The filter does not introduce failing files. |
| Retention.SweepIdempotent | server.py:204-216 | After a sweep that met no failing file, a second sweep with the same clock deletes nothing and leaves the store as the first left it. (After a failing file the thread is dead, so no second sweep runs.) |
| Retention.TotalExpiredOfSwept | server.py:204-216 | After a finished sweep no expired segment is left anywhere. |
| Retention.CutoffIsStrict | server.py:206-211 | A segment exactly at the cutoff is kept; one a second older is deleted. |
| Retention.FortyEightHourScenario | server.py:204-213 | Under the 48-hour window, a 49-hour-old segment is deleted and a 47-hour-old one is kept. |
| Registry.Upsert | server.py:309-334 | A known `pi_user` keeps its id, name and password hash; only the address, the port (default 8554), the model (default empty), `is_online = 1` and `last_seen = now` are replaced. An unknown one gets the fresh id `lastId + 1` and a row with name `pi_user`, that user, the hash of the password, the address, port and model, online at `now`. No other row changes. |
| Registry.Register | server.py:296-348 | A missing or empty user or password gives 400 with no change. Otherwise the reply carries the row id, the row is online, and the plaintext is cached. The id counter is unchanged for a known user and advances by one for a new one. The recordings directory, retention limit and health thread are untouched. |
| Registry.AddCamera | server.py:357-385 | Missing credentials give 400. A taken `pi_user` gives 409 with no change (iff). The reply is 200 (ok, with the new id) iff both credentials are non-empty and the user is new; then exactly one new offline row is added under the id `lastId + 1`, with defaulted fields, and the id counter advances to that id; and no process or event changes. The recordings directory, retention limit and health thread are untouched. |
| Registry.UpdateCamera | server.py:388-416 | An unknown id gives 404 with no change (iff). Otherwise each present field replaces the old value and each absent one keeps it. A present `pi_pass` rehashes and recaches. User, online flag and last-seen never change, nor do the other rows, the processes, the events, the id counter, the recordings directory, the retention limit or the health thread. |
| Registry.DeleteCamera | server.py:419-435 | The row, the process entry and all of that camera's events are removed; the reply is 200 even for an unknown id. The cached password and the id counter stay, and so do the recordings directory, the retention limit and the health thread. |
| Registry.RegisterExistingKeepsIdentity | server.py:310-321 | Re-registering a known `pi_user` keeps the id, name and hash, adds no row and changes no other row. Only the address, port, model, online flag and `last_seen` of that row change. |
| Registry.RegisterNewGetsFreshId | server.py:322-331 | Registering an unknown `pi_user` inserts exactly one row under a never-used id, named after `pi_user`, with the password hashed. |
| Registry.RegisterLogsAndRecords | server.py:339-345 | Registering appends `registered` ("Pi registered from <ip>") and then, iff a process was spawned, a second row: `recording_start` for this camera at `now`. No more than those two rows are added. Afterwards the camera records iff it did before or the spawn succeeded. |
| Registry.RegisterTwiceSameId | server.py:310-331 | A repeated registration gets the same id and adds no row. |
| Registry.AddAfterRegisterConflicts | server.py:369-381 | A manual add of a registered `pi_user` is refused with 409 and changes nothing. |
| Registry.EmptyUpdateIsNoop | server.py:396-410 | An update with no fields changes nothing. |
| Registry.UpdateIdempotent | server.py:388-416 | Applying an update twice equals applying it once. |
| Registry.DeleteLeavesNoTrace | server.py:419-425 | After a delete the camera has no row, no process entry and no event. |
| Registry.DeleteKeepsOtherEvents | server.py:423 | Delete keeps every other camera's event with its multiplicity. |
| Registry.ReRegisterAfterDeleteGetsNewId | server.py:322-331 | Ids are never reused: registering again after a delete gives a different id. |
| EventLog.Selection | server.py:546-552 | The filtered rows are exactly the matching rows with their multiplicities. A camera id of 0 and an empty type filter nothing. |
| EventLog.InsertDesc | server.py:554 | Inserting into a newest-first sequence keeps it newest-first and adds exactly that row. |
| EventLog.SortDesc | server.py:554 | The ordering is newest-first and a permutation of its input. |
| EventLog.ApplyLimit | server.py:554-555 | `LIMIT n` keeps the first `min(n, len)` rows, and all of them when `n` is negative. |
| EventLog.EventsList | server.py:534-561 | Each listed row carries its camera's name, or none once the camera is gone. |
| EventLog.EventsCreate | server.py:564-580 | An absent or unknown `pi_user` gives 404 and logs nothing (iff). Otherwise one row is logged for that camera at `now`, with type defaulting to `unknown` and message to empty. Nothing but the event log changes. |
| EventLog.SelectionMembers | server.py:546-552 | A row is selected iff it is in the log and matches the filters. |
| EventLog.EventsListIsTopOfSelection | server.py:534-561 | The listing has exactly `min(limit, matches)` rows (all matches for a negative limit). Every row matches the filters, the rows are newest-first, and every match left out is no newer than every row returned. |
| EventLog.LimitedTop | server.py:554-555 | The limited sorted rows are a sub-multiset of the selection and are no older than the rest of it. |
| EventLog.TopRowsNoOlder | server.py:554 | In a newest-first sequence each of the first `k` rows is no older than any later row. |
| EventLog.ZeroCameraIdIgnored | server.py:546-548 | `camera_id=0` lists exactly what an absent camera filter lists. |
| EventLog.SelectionIgnoresZero | server.py:546-548 | The filter treats camera id 0 as absent. |
| EventLog.CameraFilterAndZeroLimit | server.py:546-555 | With a non-zero camera filter only that camera's rows are listed; `limit=0` lists nothing. |
| EventLog.PushedMotionIsLogged | server.py:564-580 | A motion push from a registered node appends exactly one `motion` row for its camera. |
| Health.Reconciled | server.py:264-280 | A 200 marks the camera online and seen at the given clock reading; any other status or an exception marks it offline and keeps `last_seen`. No other column changes. |
| Health.Visit | server.py:254-280 | A camera without an address is skipped. Otherwise its row is reconciled, and a start is made iff it answered 200 without a running process. No other row changes. |
| Health.Pass | server.py:252-282 | A pass changes only rows, processes and events, and keeps the set of camera ids. Each camera is handled with its own clock readings, taken when its turn in the loop comes. |
| Health.StartLogRows | server.py:270-276 | Every row a pass logs is a `recording_start` for a launched camera, stamped with that camera's own start-time reading. |
| Health.PassCameras | server.py:254-280 | After a pass, each listed camera with an address is reconciled with its probe at its own reading of the clock, so a camera answering 200 gets the time of its turn as `last_seen`; every other row is unchanged. |
| Health.PassRequests | server.py:264-276 | The pass asks for a start for exactly the listed cameras with an address that answered 200 and had no running process. |
| Health.PassProcs | server.py:264-280 | The table gains a running handle exactly for the launched cameras. Every other entry stays as it was, and no entry is ever removed. |
| Health.PassEvents | server.py:270-276 | Over a listing without repeats, the pass appends exactly one `recording_start` per launched camera, in listing order. |
| Health.UnaddressedUntouched | server.py:255-256 | A camera with an empty or missing address keeps its row and process entry and is not started. |
| Health.FailedProbeKeepsRecording | server.py:277-280 | A failed probe marks the camera offline and keeps `last_seen`. It never removes or changes the camera's recording entry. |
| Health.PassIdempotent | server.py:254-280 | A second pass with the same replies, whatever its clock readings, starts and logs nothing, and can change only the `last_seen` of cameras answering 200; with the same readings it changes nothing. |
| Health.RecoveryRestartsRecording | server.py:264-276 | An offline camera that answers 200 again, with a successful spawn, is online, seen now, and records with the new handle; its `last_seen` is its own probe-time reading. |
| Health.HealthCycle | server.py:248-285 | Once the thread has ended a cycle changes nothing. A running cycle keeps the camera ids and the retention window. |
| Health.CycleSurvivesIffFaultless | server.py:284-285 | A cycle's retention sweep runs over the store as it was, at the cutoff of the clock reading taken after the pass, and the thread survives iff no segment fails. |
| Health.EndedThreadIsInert | server.py:248-285 | After the thread has ended, no later cycle changes anything. |
| Health.FailuresKeepState | server.py:277-280 | While a camera's probes keep failing it does not come online. Its `last_seen` and its process entry stay as they were. |
| Health.Run | server.py:248-285 | The loop, one cycle per tick, never changes the set of cameras or the retention limit, and a thread that has ended stays ended. |
| Health.ConsecutiveFailuresMeanOffline | server.py:248-285 | After one or more failing cycles that start with the thread running, the camera is offline, keeps its `last_seen`, and keeps its recording entry. |
| FrameSource.Initial | pi_camera_client.py:65-72 | A new stream is not running and holds no frame. |
| FrameSource.Start | pi_camera_client.py:74-91 | Start opens one capture and reports whether it opened. The reader runs iff it opened. The slot is unchanged. |
| FrameSource.ReadStep | pi_camera_client.py:93-117 | A stopped reader does nothing. A good read replaces the slot and counts the frame, and the count restarts when the FPS window closes. A failed read keeps the slot and opens a new capture. |
| FrameSource.Stop | pi_camera_client.py:128-131 | Stopping ends the reader and keeps the slot. |
| FrameSource.GetFrameJpeg | pi_camera_client.py:119-126 | The result is absent iff no frame has arrived; otherwise it is the slot encoded at the requested quality. |
| FrameSource.Snapshot | pi_camera_client.py:369-376 | With no frame the reply is 503 "No frame available" (iff); otherwise it is the slot at quality 95. |
| FrameSource.StreamPart | pi_camera_client.py:352-358 | Each stream part is the slot at quality 70, or nothing while no frame has arrived. |
| FrameSource.SlotHoldsLatestFrame | pi_camera_client.py:93-110 | While the reader runs, the slot holds the frame of the latest good read, or what it held if every read failed. |
| FrameSource.FrameNeverLost | pi_camera_client.py:93-126 | Once a frame has arrived, no later JPEG request returns nothing. |
| FrameSource.NoFrameIffNoRead | pi_camera_client.py:93-122 | From a fresh opened stream, the JPEG request returns nothing iff no read has succeeded. |
| FrameSource.UnopenedServesNothing | pi_camera_client.py:369-376 | A stream whose capture never opened answers every snapshot with 503. The node's `main` exits when the first capture fails to open (pi_camera_client.py:497-499), so this state is met only before `start` or by an embedding that calls `start` itself. |
| FrameSource.ReadRun | pi_camera_client.py:93-117 | The reader loop never changes the running flag and a stopped one changes nothing. While it runs it opens one new capture per failed read, and a slot that has held a frame never empties. |
| FrameSource.StoppedReaderIsInert | pi_camera_client.py:93-131 | A stopped reader ignores every read. |
| Motion.NewDetector | pi_camera_client.py:241-248 | A new detector has no baseline, an empty ring, last alert time 0 and cooldown 10. |
| Motion.Trim | pi_camera_client.py:295-297 | Up to 1000 alerts the ring is unchanged; past that it keeps its newest 500, in order. |
| Motion.Tick | pi_camera_client.py:256-304 | Without a frame nothing changes. With a frame the baseline becomes that frame. An alert is raised iff there was a baseline, motion was seen and more than `cooldown` seconds have passed. An alert sets the alert time and is appended to the ring, then trimmed. |
| Motion.Run | pi_camera_client.py:256-304 | A run of ticks keeps the detector's cooldown. |
| Motion.NoFrameNoChange | pi_camera_client.py:258-261 | A tick without a frame changes neither baseline, ring nor alert time. |
| Motion.FirstFrameIsBaseline | pi_camera_client.py:269-272 | The first frame becomes the baseline and raises no alert, whatever the verdict. |
| Motion.CooldownIsStrict | pi_camera_client.py:286-287 | Motion exactly `cooldown` seconds after the last alert raises none; one second later it does. |
| Motion.TickKeepsRing | pi_camera_client.py:292-297 | One tick keeps the ring at most 1000 long, a suffix of old ring plus new alert, and at least `min(total, 500)` long. |
| Motion.RunKeepsRing | pi_camera_client.py:292-297 | After any run the ring holds at most 1000 alerts. They are the newest alerts of the old ring followed by the run's alerts, in order, and at least the newest 500 of them. |
| Motion.RunSpacesAlerts | pi_camera_client.py:286-293 | The alerts of a run are each more than `cooldown` after the previous one (the first after the last alert time). The final alert time is the last alert's. Each alert is a `motion` / "Motion detected" event. |
| Motion.NewestAlertRetained | pi_camera_client.py:292-297 | The newest alert of a run is the newest entry of the ring. |
| Motion.FreshDetectorRun | pi_camera_client.py:241-304 | From a new detector the ring is at most 1000 long, is a suffix of the alerts raised, and the alerts are more than 10 s apart. |
| EdgeApi.RequireAuth | pi_camera_client.py:337-345 | The handler runs iff the credentials check passes, and its reply is returned. Otherwise the reply is 401 "Unauthorized" with the `Basic realm="Pi Camera"` challenge. |
| EdgeApi.RejectedIgnoresHandler | pi_camera_client.py:341-344 | A rejected request's reply does not depend on the handler at all. |
| EdgeApi.OnlyExactCredentialsPass | pi_camera_client.py:330-335 | A missing header fails. Credentials pass iff both username and password equal the configured ones. |
| EdgeApi.PtzBodyRoundTrip | pi_camera_client.py:170-190 | The zoom value can be read back out of the PTZ body exactly as written. |
| EdgeApi.BodyCarriesZoom | pi_camera_client.py:170-200 | The body `PUT` for a PTZ move carries that move's zoom value, read back exactly; the automatic-focus body carries no zoom field. |
| EdgeApi.ZoomCommand | pi_camera_client.py:170-203 | A request is sent iff the action is `stop`, `zoomIn`, `zoomOut` or `autoFocus`; PTZ moves have pan and tilt 0. |
| EdgeApi.SetZoom | pi_camera_client.py:159-208 | The reply is ok (echoing the action) iff the action is known and its path and XML body went out, whatever the camera's status. An unknown action gives "Unknown action: <action>" and sends nothing. A transport exception gives its text. |
| EdgeApi.ZoomControl | pi_camera_client.py:392-400 | The defaults are action `stop` and speed 50. With no action the endpoint sends zoom `0` on the PTZ path. `zoomIn` without a speed sends `50`, and `zoomOut` without a speed sends `-50`. The reply is ok or the transport's error text. |
| EdgeApi.DefaultSpeedRendering | pi_camera_client.py:397-398 | The default speed 50 renders as `50`, and negated as `-50`. |
| EdgeApi.ZoomInCarriesSpeed | pi_camera_client.py:178-183 | `zoomIn` sends `str(speed)`. The camera, reading the zoom field of the body it receives, gets the speed back. |
| EdgeApi.ZoomOutCarriesNegation | pi_camera_client.py:185-190 | For a non-negative speed, `zoomOut` sends `-` followed by `str(speed)`. The camera reads minus the speed from the body. |
| EdgeApi.StopSendsZero | pi_camera_client.py:170-176 | `stop` sends zoom `0` whatever the speed, and the camera reads 0 from the body. |
| EdgeApi.NegativeZoomOutIsMalformed | pi_camera_client.py:185-190 | A negative speed still sends a `zoomOut` request, but its body carries `--n`, which the camera cannot read as an integer. |
| EdgeApi.AutoFocusMovesNoZoom | pi_camera_client.py:192-200 | `autoFocus` sends the focus request to the focus-configuration path, and its body moves no zoom. |
| EdgeApi.FocusNearFarUnknown | pi_camera_client.py:159-203 | `focusNear` and `focusFar`, named in the docstring, are unknown actions and reach no camera. |
| EdgeApi.RecentEvents | pi_camera_client.py:411-416 | The reply is always a suffix of the ring. |
| EdgeApi.RecentEventsSlice | pi_camera_client.py:415-416 | A positive limit gives the newest `min(limit, len)` alerts. `limit=0` gives the whole ring. A negative limit drops the oldest `-limit`. |
| EdgeApi.DefaultIsNewestFifty | pi_camera_client.py:415 | With no usable limit the reply is the newest `min(50, len)` alerts. |
| Registration.Payload | pi_camera_client.py:426-442 | The payload carries the node's user, password and port, its address or `unknown`, and the fixed camera model. |
| Registration.RegisterWithServer | pi_camera_client.py:444-461 | The loop makes 1 to 5 attempts, stops at the first 200, and returns true iff one of the five got 200. All five are made when none succeeds. It sleeps 5 s after every attempt that failed. |
| Registration.PayloadAccepted | pi_camera_client.py:436-442 | The coordinator accepts the payload iff the node's user and password are non-empty. It then replies with the id of a row for that user; otherwise 400 with no change. |
| Common.NatToString | pi_camera_client.py:178-190 | The rendering of a non-negative integer is a non-empty string of digits with no leading zero (a leading `0` only for 0 itself). |
| Common.IntToString | pi_camera_client.py:178-190 | The rendering is non-empty and starts with `-` iff the integer is negative. |
| Common.IntToStringRoundTrip | pi_camera_client.py:178-190 | Reading back the rendering of an integer gives the same integer. |
| Common.PySliceFrom | pi_camera_client.py:416 | `s[start:]` is a suffix of `s`. Its length is `max(0, len-start)` for a non-negative start and `min(-start, len)` for a negative one. |

## Left out

- HTTP transport, Flask routing and JSON encoding. Request bodies are
  datatypes whose absent keys are `None`. A JSON `null`, a value of the
  wrong type and a body that is not JSON at all are not modelled.
- sqlite: tables are a map and a sequence, and `hash_password` is the
  symbolic digest `Sha256Of`. `init_db`'s other columns (`created_at`,
  `zoom_capable`) are not modelled.
- The ffmpeg command line, the stream URL, the segment naming pattern and
  the `subprocess` lifecycle (terminate, wait, kill). A process is a handle
  with a live flag.
- The filesystem beyond the sweep. `mkdir` of the camera directory and
  `shutil.rmtree` on delete are not modelled, nor are directories inside a
  camera directory that match `seg_*.mp4`. A failing `stat` and a failing
  `unlink` are one `fault` flag.
- Threads and locks. Everything runs sequentially. `start_recording`
  releases its lock between the liveness check and the insert, so the
  one-process-per-camera guarantee holds only for sequential callers. The
  health pass and `api_register` start recordings on their own threads. The
  model runs those starts inline, and in `Registry.Register` it logs
  `registered` before the recording start; the source allows either order.
- Wall-clock time, `sleep`, and the 30-second health interval as a wait.
  Clocks are integer seconds passed in: a health cycle gets one reading per
  camera for `last_seen`, one per camera for its recording start, and one for
  the sweep, with no ordering between them assumed. `Registration.RegisterWithServer`
  reports the total sleep time instead.
- Floating point: the FPS value (only the frame-count reset is kept), and
  `size_mb` in the recordings listing.
- OpenCV: decoding, grayscale, blur, difference, threshold and contours.
  The motion verdict is a boolean input per tick, so the threshold and
  minimum area are only carried as constants.
- The plaintext-password plumbing into the stream URL (`_get_pi_pass`,
  `cam["_plain_pass"]`), and the credentials the health probe sends.
- Motion alerts posted to the coordinator: `Motion.Tick` returns the event.
  The network call and its failure are not modelled;
  `EventLog.PushedMotionIsLogged` shows what the coordinator does with one.
- Endpoints with no decision logic: the camera listing, the stream and
  snapshot proxies and the zoom proxy on the coordinator, recordings listing
  and download, `/status`, `/device_info`, `camera_get_zoom`,
  `camera_get_snapshot`, and the page routes.
- `access_hikvision_test_2.py`, a one-off connectivity diagnostic with no
  reusable logic.
- Timestamps are integers. The source's ISO-8601 strings of one format
  sort in time order, so `ORDER BY timestamp` is the integer order. Rows
  with equal timestamps are listed in insertion order, one of the orders
  SQL allows.
- Health.PassEvents: stated for listings without repeated ids, which is
  what `get_all_cameras` returns.

=== FILE: common.dfy ===
/**
  Shared vocabulary of the model: optional values (Python's `None` or a
  value), integer clock readings, Python's `str()` of an integer with its
  inverse, and Python's `s[start:]` slice.
 */
module Common {

  /** A value that may be absent: a missing JSON field, a NULL column, `None`. */
  datatype Option<+T> = None | Some(value: T) {

    /** The value, or `default` when absent, as `dict.get(key, default)` does. */
    function GetOr(default: T): (r: T)
      ensures Some? ==> r == value
      ensures None? ==> r == default
    {
      match this
      case Some(v) => v
      case None => default
    }
  }

  /** Python's truth test on an optional string: present and not empty. */
  predicate Truthy(s: Option<string>)
  {
    s.Some? && s.value != ""
  }

  /** A clock reading in whole seconds; every clock of the system is one of these. */
  type Time = int

  function Min(a: int, b: int): int { if a <= b then a else b }

  function Max(a: int, b: int): int { if a >= b then a else b }

  predicate IsDigit(c: char) { '0' <= c <= '9' }

  predicate AllDigits(s: string) { forall i :: 0 <= i < |s| ==> IsDigit(s[i]) }

  predicate IsDecimal(s: string) { |s| > 0 && AllDigits(s) }

  function DigitChar(d: nat): (c: char)
    requires d < 10
    ensures IsDigit(c) && c as int - '0' as int == d
  {
    (d + '0' as int) as char
  }

  /** Python's `str(n)` for `n >= 0`: the shortest decimal numeral of `n`. */
  function NatToString(n: nat): (s: string)
    ensures IsDecimal(s)
    ensures s[0] == '0' ==> n == 0
    decreases n
  {
    if n < 10 then [DigitChar(n)] else NatToString(n / 10) + [DigitChar(n % 10)]
  }

  /** Python's `str(i)` for any integer: a minus sign, then the numeral of `|i|`. */
  function IntToString(i: int): (s: string)
    ensures |s| > 0
    ensures s[0] == '-' <==> i < 0
  {
    if i < 0 then "-" + NatToString(-i) else NatToString(i)
  }

  /** The number a string of decimal digits denotes. */
  function DecimalValue(s: string): nat
    requires AllDigits(s)
    decreases |s|
  {
    if |s| == 0 then 0 else DecimalValue(s[..|s| - 1]) * 10 + (s[|s| - 1] as int - '0' as int)
  }

  /** Reads an optionally negated decimal integer, as a device parsing a numeric field would; `None` for anything else. */
  function ParseInt(s: string): Option<int>
  {
    if |s| > 0 && s[0] == '-' then
      if IsDecimal(s[1..]) then var v: int := DecimalValue(s[1..]); Some(-v) else None
    else if IsDecimal(s) then Some(DecimalValue(s)) else None
  }

  lemma {:induction false} NatToStringRoundTrip(n: nat)
    ensures DecimalValue(NatToString(n)) == n
    decreases n
  {
    if n >= 10 {
      var s := NatToString(n);
      assert s[..|s| - 1] == NatToString(n / 10);
      NatToStringRoundTrip(n / 10);
    }
  }

  /** Reading back what `str()` wrote gives the same integer. */
  lemma IntToStringRoundTrip(i: int)
    ensures ParseInt(IntToString(i)) == Some(i)
  {
    if i < 0 {
      var s := IntToString(i);
      assert s[1..] == NatToString(-i);
      NatToStringRoundTrip(-i);
    } else {
      NatToStringRoundTrip(i);
    }
  }

  /**
    Python's `s[start:]`. A negative `start` counts from the end and is
    clamped at the front; a non-negative one past the end gives `[]`. The
    result is always a suffix of `s`.
   */
  function PySliceFrom<T>(s: seq<T>, start: int): (r: seq<T>)
    ensures IsSuffix(r, s)
    ensures start >= 0 ==> |r| == Max(0, |s| - start)
    ensures start < 0 ==> |r| == Min(-start, |s|)
  {
    if start >= 0 then
      if start >= |s| then [] else s[start..]
    else if -start >= |s| then s else s[|s| + start..]
  }

  /** `a` is a suffix of `b`. */
  ghost predicate IsSuffix<T>(a: seq<T>, b: seq<T>)
  {
    |a| <= |b| && a == b[|b| - |a|..]
  }

  lemma SuffixAppend<T>(a: seq<T>, b: seq<T>, x: seq<T>)
    requires IsSuffix(a, b)
    ensures IsSuffix(a + x, b + x)
  {
    assert (b + x)[|b + x| - |a + x|..] == b[|b| - |a|..] + x;
  }

  lemma SuffixTrans<T>(a: seq<T>, b: seq<T>, c: seq<T>)
    requires IsSuffix(a, b) && IsSuffix(b, c)
    ensures IsSuffix(a, c)
  {
    assert c[|c| - |b|..][|b| - |a|..] == c[|c| - |a|..];
  }

  lemma AppendAssoc<T>(a: seq<T>, b: seq<T>, c: seq<T>)
    ensures (a + b) + c == a + (b + c)
  {
  }
}

=== FILE: edge_api.dfy ===
/**
  The edge node's HTTP surface: the Basic-authentication gate in front of
  every endpoint, the zoom command dispatch to the camera's ISAPI, and the
  `/events` slice of the motion ring.
 */
module EdgeApi {
  import opened Common

  // ---------------------------------------------------------------------------
  // Authentication
  // ---------------------------------------------------------------------------

  /** The credentials of an `Authorization: Basic` header, once decoded. */
  datatype Credentials = Credentials(username: string, password: string)

  /** The node's own credentials (`--pi-user`, `--pi-pass`). */
  datatype EdgeConfig = EdgeConfig(piUser: string, piPass: string)

  const Unauthorized: int := 401
  const UnauthorizedBody := "Unauthorized"

  /** The `WWW-Authenticate` challenge of section 2 of RFC 7617, for the realm `Pi Camera`. */
  const BasicChallenge := "Basic realm=\"Pi Camera\""

  /** `check_auth`. */
  predicate CheckAuth(auth: Option<Credentials>, cfg: EdgeConfig)
  {
    auth.Some? && auth.value.username == cfg.piUser && auth.value.password == cfg.piPass
  }

  /** What a guarded endpoint returns: the 401 challenge, or the handler's own reply. */
  datatype Guarded<R> = Challenge(status: int, body: string, wwwAuthenticate: string) | Handled(reply: R)

  /** `require_auth`: the handler runs only for the node's own credentials. */
  function RequireAuth<R>(auth: Option<Credentials>, cfg: EdgeConfig, handler: () -> R): (r: Guarded<R>)
    ensures r.Handled? <==> CheckAuth(auth, cfg)
    ensures r.Handled? ==> r.reply == handler()
    ensures r.Challenge? ==> r == Challenge(Unauthorized, UnauthorizedBody, BasicChallenge)
  {
    if CheckAuth(auth, cfg) then Handled(handler()) else Challenge(Unauthorized, UnauthorizedBody, BasicChallenge)
  }

  /** Rejected requests never reach the handler: the reply is the same whatever the handler would do. */
  lemma RejectedIgnoresHandler<R>(auth: Option<Credentials>, cfg: EdgeConfig, h1: () -> R, h2: () -> R)
    requires !CheckAuth(auth, cfg)
    ensures RequireAuth(auth, cfg, h1) == RequireAuth(auth, cfg, h2)
  {
  }

  /** A missing header, a wrong user or a wrong password are each rejected. */
  lemma OnlyExactCredentialsPass(cfg: EdgeConfig, user: string, pass: string)
    ensures !CheckAuth(None, cfg)
    ensures CheckAuth(Some(Credentials(user, pass)), cfg) <==> user == cfg.piUser && pass == cfg.piPass
    ensures CheckAuth(Some(Credentials(cfg.piUser, cfg.piPass)), cfg)
  {
  }

  // ---------------------------------------------------------------------------
  // Zoom dispatch
  // ---------------------------------------------------------------------------

  const PtzPath := "/ISAPI/PTZCtrl/channels/1/continuous"
  const FocusPath := "/ISAPI/Image/channels/1/focusConfiguration"

  const DefaultAction := "stop"
  const DefaultSpeed: int := 50

  /** The `PUT` the camera receives: a continuous PTZ move, or switching focus to automatic. */
  datatype DeviceRequest = PtzContinuous(pan: int, tilt: int, zoom: string) | FocusAuto

  function PathOf(d: DeviceRequest): string
  {
    match d
    case PtzContinuous(_, _, _) => PtzPath
    case FocusAuto => FocusPath
  }

  const PtzOpen := "<PTZData><pan>0</pan><tilt>0</tilt><zoom>"
  const PtzClose := "</zoom></PTZData>"

  /** The XML body of a PTZ move (the pan and tilt are always 0). */
  function PtzBody(zoom: string): string
  {
    PtzOpen + zoom + PtzClose
  }

  /** Reads the zoom value back out of a PTZ body. */
  function ZoomField(body: string): Option<string>
  {
    if |body| >= |PtzOpen| + |PtzClose| && body[..|PtzOpen|] == PtzOpen && body[|body| - |PtzClose|..] == PtzClose
    then Some(body[|PtzOpen|..|body| - |PtzClose|])
    else None
  }

  lemma PtzBodyRoundTrip(zoom: string)
    ensures ZoomField(PtzBody(zoom)) == Some(zoom)
  {
    var b := PtzBody(zoom);
    assert b[..|PtzOpen|] == PtzOpen;
    assert b[|b| - |PtzClose|..] == PtzClose;
    assert b[|PtzOpen|..|b| - |PtzClose|] == zoom;
  }

  const XmlDeclaration := "<?xml version=\"1.0\" encoding=\"UTF-8\"?>"

  /** The focus body, line breaks and indentation as in the source's triple-quoted literal. */
  const FocusAutoBody := XmlDeclaration
    + "\n                <FocusConfiguration>"
    + "\n                    <focusStyle>AUTO</focusStyle>"
    + "\n                </FocusConfiguration>"

  /** The XML body each request is `PUT` with. */
  function BodyOf(d: DeviceRequest): string
  {
    match d
    case PtzContinuous(_, _, zoom) => PtzBody(zoom)
    case FocusAuto => FocusAutoBody
  }

  /** What the camera reads as the zoom of a request: the PTZ move's value; a focus request carries none. */
  lemma BodyCarriesZoom(d: DeviceRequest)
    ensures d.PtzContinuous? ==> ZoomField(BodyOf(d)) == Some(d.zoom)
    ensures d.FocusAuto? ==> ZoomField(BodyOf(d)).None?
  {
    if d.PtzContinuous? {
      PtzBodyRoundTrip(d.zoom);
    } else {
      assert |PtzOpen| == 41 && |XmlDeclaration| == 38;
      assert XmlDeclaration[1] == '?' && PtzOpen[1] == 'P';
      assert FocusAutoBody[..|PtzOpen|][1] == XmlDeclaration[1];
    }
  }

  /**
    The request each action sends; `None` for every other action. The
    zoom value is the f-string rendering of `speed`, with a `-` written in
    front for `zoomOut`.
   */
  function ZoomCommand(action: string, speed: int): (r: Option<DeviceRequest>)
    ensures r.Some? <==> action in {"stop", "zoomIn", "zoomOut", "autoFocus"}
    ensures r.Some? && r.value.PtzContinuous? ==> r.value.pan == 0 && r.value.tilt == 0
  {
    if action == "stop" then Some(PtzContinuous(0, 0, "0"))
    else if action == "zoomIn" then Some(PtzContinuous(0, 0, IntToString(speed)))
    else if action == "zoomOut" then Some(PtzContinuous(0, 0, "-" + IntToString(speed)))
    else if action == "autoFocus" then Some(FocusAuto)
    else None
  }

  /** Whether the `PUT` went out: any reply counts (its status is not looked at), or `requests` raised. */
  datatype Transport = Delivered | Raised(reason: string)

  /** The camera's HTTP endpoint, given the path and the XML body of a `PUT`. */
  type Isapi = (string, string) -> Transport

  /** Sends `d` to the camera: its path with its rendered body. */
  function Put(camera: Isapi, d: DeviceRequest): Transport
  {
    camera(PathOf(d), BodyOf(d))
  }

  datatype ZoomReply = ZoomOk(action: string) | ZoomError(message: string)

  function UnknownAction(action: string): string
  {
    "Unknown action: " + action
  }

  /**
    `camera_set_zoom`: an unknown action is an error and sends nothing; a
    known one reports ok once the request went out, whatever the camera
    answered, and the exception text when it did not.
   */
  function SetZoom(action: string, speed: int, send: Isapi): (r: ZoomReply)
    ensures r.ZoomOk? <==> ZoomCommand(action, speed).Some? && Put(send, ZoomCommand(action, speed).value).Delivered?
    ensures r.ZoomOk? ==> r.action == action
    ensures ZoomCommand(action, speed).None? ==> r == ZoomError(UnknownAction(action))
    ensures ZoomCommand(action, speed).Some? && Put(send, ZoomCommand(action, speed).value).Raised? ==>
      r == ZoomError(Put(send, ZoomCommand(action, speed).value).reason)
  {
    match ZoomCommand(action, speed)
    case None => ZoomError(UnknownAction(action))
    case Some(req) =>
      match Put(send, req)
      case Delivered => ZoomOk(action)
      case Raised(reason) => ZoomError(reason)
  }

  /** The JSON body of `POST /zoom`; absent keys are `None`. */
  datatype ZoomRequest = ZoomRequest(action: Option<string>, speed: Option<int>)

  /** The reply for a known action once its request has been handed to the transport. */
  function SentReply(action: string, t: Transport): ZoomReply
  {
    if t.Delivered? then ZoomOk(action) else ZoomError(t.reason)
  }

  /**
    `zoom_control` (after authentication): defaults `stop` and 50. With no
    action the zoom stops; with no speed a zoom moves at 50.
   */
  function ZoomControl(req: ZoomRequest, send: Isapi): (r: ZoomReply)
    ensures req.action.None? ==> r == SentReply(DefaultAction, Put(send, PtzContinuous(0, 0, "0")))
    ensures req.action == Some("zoomIn") && req.speed.None? ==> r == SentReply("zoomIn", Put(send, PtzContinuous(0, 0, "50")))
    ensures req.action == Some("zoomOut") && req.speed.None? ==> r == SentReply("zoomOut", Put(send, PtzContinuous(0, 0, "-50")))
  {
    DefaultSpeedRendering();
    SetZoom(req.action.GetOr(DefaultAction), req.speed.GetOr(DefaultSpeed), send)
  }

  /** `str(50)` is `"50"`. */
  lemma DefaultSpeedRendering()
    ensures IntToString(DefaultSpeed) == "50" && "-" + IntToString(DefaultSpeed) == "-50"
  {
    assert NatToString(5) == ['5'];
    assert NatToString(50) == NatToString(5) + [DigitChar(0)];
  }

  /** The zoom value the camera reads back out of the body `action` sends at `speed`. */
  function SentZoom(action: string, speed: int): Option<int>
  {
    match ZoomCommand(action, speed)
    case None => None
    case Some(d) =>
      match ZoomField(BodyOf(d))
      case None => None
      case Some(z) => ParseInt(z)
  }

  lemma SentZoomOfMove(action: string, speed: int)
    requires ZoomCommand(action, speed).Some? && ZoomCommand(action, speed).value.PtzContinuous?
    ensures SentZoom(action, speed) == ParseInt(ZoomCommand(action, speed).value.zoom)
  {
    BodyCarriesZoom(ZoomCommand(action, speed).value);
  }

  /** `zoomIn` carries the speed as written by `str()`, and the camera reads it back as the speed. */
  lemma ZoomInCarriesSpeed(speed: int)
    ensures ZoomCommand("zoomIn", speed) == Some(PtzContinuous(0, 0, IntToString(speed)))
    ensures SentZoom("zoomIn", speed) == Some(speed)
  {
    SentZoomOfMove("zoomIn", speed);
    IntToStringRoundTrip(speed);
  }

  /** `zoomOut` carries the negated speed, for a non-negative speed. */
  lemma ZoomOutCarriesNegation(speed: int)
    requires speed >= 0
    ensures ZoomCommand("zoomOut", speed) == Some(PtzContinuous(0, 0, "-" + NatToString(speed)))
    ensures SentZoom("zoomOut", speed) == Some(-speed)
  {
    var z := "-" + NatToString(speed);
    assert ZoomCommand("zoomOut", speed).value.zoom == z;
    SentZoomOfMove("zoomOut", speed);
    assert z[1..] == NatToString(speed);
    NatToStringRoundTrip(speed);
    assert ParseInt(z) == Some(-speed);
  }

  /** `stop` sends zoom 0 whatever the speed. */
  lemma StopSendsZero(speed: int)
    ensures ZoomCommand("stop", speed) == Some(PtzContinuous(0, 0, "0"))
    ensures SentZoom("stop", speed) == Some(0)
  {
    SentZoomOfMove("stop", speed);
    assert IsDecimal("0") && "0"[..0] == [];
    assert ParseInt("0") == Some(0);
  }

  /** A negative speed makes `zoomOut` send `--n`, which is not an integer at all. */
  lemma NegativeZoomOutIsMalformed(speed: int)
    requires speed < 0
    ensures ZoomCommand("zoomOut", speed).Some? && SentZoom("zoomOut", speed).None?
  {
    var z := "-" + IntToString(speed);
    SentZoomOfMove("zoomOut", speed);
    assert z[1..][0] == '-';
    assert !IsDigit(z[1..][0]);
  }

  /** Automatic focus is sent to the focus path and moves no zoom. */
  lemma AutoFocusMovesNoZoom(speed: int)
    ensures ZoomCommand("autoFocus", speed) == Some(FocusAuto) && PathOf(FocusAuto) == FocusPath
    ensures SentZoom("autoFocus", speed).None?
  {
    BodyCarriesZoom(FocusAuto);
  }

  /** The actions the docstring names but the code does not handle are unknown and reach no camera. */
  lemma FocusNearFarUnknown(speed: int, send: Isapi)
    ensures SetZoom("focusNear", speed, send) == ZoomError("Unknown action: focusNear")
    ensures SetZoom("focusFar", speed, send) == ZoomError("Unknown action: focusFar")
  {
  }

  // ---------------------------------------------------------------------------
  // Recent events
  // ---------------------------------------------------------------------------

  const DefaultEventLimit: int := 50

  /** `/events` (after authentication): `events[-limit:]`, the limit defaulting to 50 when absent or not an integer. */
  function RecentEvents<T>(events: seq<T>, limit: Option<int>): (r: seq<T>)
    ensures IsSuffix(r, events)
  {
    PySliceFrom(events, -limit.GetOr(DefaultEventLimit))
  }

  /**
    Python's slice at `-limit`: the newest `limit` for a positive limit,
    but everything for `limit=0` (since `-0` is `0`), and everything but
    the oldest `-limit` for a negative one.
   */
  lemma RecentEventsSlice<T>(events: seq<T>, limit: int)
    ensures limit > 0 ==> RecentEvents(events, Some(limit)) == events[|events| - Min(limit, |events|)..]
    ensures limit == 0 ==> RecentEvents(events, Some(limit)) == events
    ensures limit < 0 ==> RecentEvents(events, Some(limit)) == if -limit >= |events| then [] else events[-limit..]
  {
  }

  lemma DefaultIsNewestFifty<T>(events: seq<T>)
    ensures |RecentEvents(events, None)| == Min(50, |events|)
  {
  }
}

=== FILE: event_log.dfy ===
/**
  The coordinator's event log as seen through its HTTP surface: the
  filtered, newest-first, limited listing (`GET /api/events`) and the push
  endpoint edge nodes post motion events to (`POST /api/events`).

  Event timestamps are ISO-8601 strings of one format in the source, so
  their string order is their time order; the model keeps them as integer
  seconds. SQL leaves the order of rows with equal timestamps open; the
  model fixes one (earlier rows first) and the properties below hold of
  every order that sorts by timestamp.
 */
module EventLog {
  import opened Common
  import opened ServerState

  const DefaultLimit: int := 100
  const UnknownCamera := "Unknown camera"
  const UnknownKind := "unknown"

  /**
    The query string of `GET /api/events`. A parameter that is absent, or
    (for the integer ones) not an integer, is `None`.
   */
  datatype EventQuery = EventQuery(cameraId: Option<int>, kind: Option<string>, limit: Option<int>)

  /** A listed row: the event and its camera's name from the `LEFT JOIN` (`None` when the row is gone). */
  datatype ListedEvent = ListedEvent(event: Event, cameraName: Option<string>)

  /** The `event` object of a push; its own timestamp is ignored by the coordinator and not modelled. */
  datatype PushedEvent = PushedEvent(kind: Option<string>, message: Option<string>)

  datatype PushRequest = PushRequest(piUser: Option<string>, event: Option<PushedEvent>)

  /**
    The `WHERE` clause. Both filters pass Python's truth test first, so a
    `camera_id` of 0 and an empty `type` filter nothing.
   */
  predicate Selected(e: Event, q: EventQuery)
  {
    && (q.cameraId.Some? && q.cameraId.value != 0 ==> e.cameraId == q.cameraId.value)
    && (Truthy(q.kind) ==> e.kind == q.kind.value)
  }

  function Selection(s: seq<Event>, q: EventQuery): (r: seq<Event>)
    ensures forall e :: multiset(r)[e] == if Selected(e, q) then multiset(s)[e] else 0
    decreases |s|
  {
    if |s| == 0 then []
    else
      assert s == [s[0]] + s[1..];
      if Selected(s[0], q) then [s[0]] + Selection(s[1..], q) else Selection(s[1..], q)
  }

  predicate SortedDesc(s: seq<Event>)
  {
    forall i, j :: 0 <= i < j < |s| ==> s[i].timestamp >= s[j].timestamp
  }

  function InsertDesc(e: Event, s: seq<Event>): (r: seq<Event>)
    requires SortedDesc(s)
    ensures SortedDesc(r)
    ensures multiset(r) == multiset(s) + multiset{e}
    ensures |r| == |s| + 1
    ensures forall x :: x in r ==> x == e || x in s
    decreases |s|
  {
    if |s| == 0 || e.timestamp >= s[0].timestamp then
      PrependSorted(e, s);
      [e] + s
    else
      assert s == [s[0]] + s[1..];
      SortedHeadBounds(s);
      var t := InsertDesc(e, s[1..]);
      PrependSorted(s[0], t);
      [s[0]] + t
  }

  /** No later row of a descending sequence is newer than its first one. */
  lemma SortedHeadBounds(s: seq<Event>)
    requires SortedDesc(s) && |s| > 0
    ensures SortedDesc(s[1..])
    ensures forall x :: x in s[1..] ==> x.timestamp <= s[0].timestamp
  {
    forall x | x in s[1..]
      ensures x.timestamp <= s[0].timestamp
    {
      var m :| 0 <= m < |s[1..]| && s[1..][m] == x;
      assert s[m + 1] == x;
    }
  }

  /** A row no older than every row of a descending sequence can go in front of it. */
  lemma PrependSorted(x: Event, t: seq<Event>)
    requires SortedDesc(t)
    requires forall y :: y in t ==> y.timestamp <= x.timestamp
    ensures SortedDesc([x] + t)
  {
    var r := [x] + t;
    forall i, j | 0 <= i < j < |r|
      ensures r[i].timestamp >= r[j].timestamp
    {
      assert r[j] == t[j - 1] && t[j - 1] in t;
      if i > 0 {
        assert r[i] == t[i - 1];
      }
    }
  }

  /** `ORDER BY timestamp DESC`: the same rows, newest first. */
  function SortDesc(s: seq<Event>): (r: seq<Event>)
    ensures SortedDesc(r)
    ensures multiset(r) == multiset(s)
    decreases |s|
  {
    if |s| == 0 then []
    else
      assert s == [s[0]] + s[1..];
      InsertDesc(s[0], SortDesc(s[1..]))
  }

  /** SQLite's `LIMIT n`: at most `n` rows, and no limit at all when `n` is negative. */
  function ApplyLimit(s: seq<Event>, limit: int): (r: seq<Event>)
    ensures |r| == if limit < 0 then |s| else Min(limit, |s|)
    ensures r == s[..|r|]
  {
    if limit < 0 || limit >= |s| then s else s[..limit]
  }

  function CameraName(cams: map<CamId, Camera>, id: CamId): Option<string>
  {
    if id in cams then Some(cams[id].name) else None
  }

  /** `api_events_list`. */
  function EventsList(c: Coordinator, q: EventQuery): (r: seq<ListedEvent>)
    ensures forall i :: 0 <= i < |r| ==> r[i].cameraName == CameraName(c.cameras, r[i].event.cameraId)
  {
    var rows := ApplyLimit(SortDesc(Selection(c.events, q)), q.limit.GetOr(DefaultLimit));
    seq(|rows|, i requires 0 <= i < |rows| => ListedEvent(rows[i], CameraName(c.cameras, rows[i].cameraId)))
  }

  function EventsOf(r: seq<ListedEvent>): (s: seq<Event>)
    ensures |s| == |r| && forall i :: 0 <= i < |r| ==> s[i] == r[i].event
  {
    seq(|r|, i requires 0 <= i < |r| => r[i].event)
  }

  /**
    `api_events_create`: an unknown or absent `pi_user` is a 404 and logs
    nothing; otherwise one row is logged for that camera, with type
    `unknown` and an empty message where the pushed event lacks them,
    stamped with the coordinator's clock. The endpoint checks no
    credentials.
   */
  function EventsCreate(c: Coordinator, req: PushRequest, now: Time): (r: Outcome)
    requires Wf(c)
    ensures var known := req.piUser.Some? && exists id :: id in c.cameras && c.cameras[id].piUser == req.piUser.value;
      && (!known <==> r.response == Error(404, UnknownCamera))
      && (!known ==> r.state == c)
      && (known ==>
            && r.response == Ok(None)
            && |r.state.events| == |c.events| + 1
            && r.state.events[..|c.events|] == c.events
            && var e := r.state.events[|c.events|];
            && e.cameraId in c.cameras && c.cameras[e.cameraId].piUser == req.piUser.value
            && e.timestamp == now
            && e.kind == (if req.event.Some? then req.event.value.kind.GetOr(UnknownKind) else UnknownKind)
            && e.message == (if req.event.Some? then req.event.value.message.GetOr("") else ""))
    ensures r.state.(events := c.events) == c
  {
    var cam := if req.piUser.Some? then CameraByUser(c.cameras, req.piUser.value) else None;
    assert cam.None? ==> !(req.piUser.Some? && exists id :: id in c.cameras && c.cameras[id].piUser == req.piUser.value);
    match cam
    case None => Outcome(c, Error(404, UnknownCamera))
    case Some(id) =>
      var payload := req.event.GetOr(PushedEvent(None, None));
      Outcome(LogEvent(c, id, payload.kind.GetOr(UnknownKind), payload.message.GetOr(""), now), Ok(None))
  }

  // ---------------------------------------------------------------------------
  // Properties
  // ---------------------------------------------------------------------------

  lemma SelectionMembers(s: seq<Event>, q: EventQuery)
    ensures forall e :: e in Selection(s, q) <==> e in s && Selected(e, q)
  {
    forall e
      ensures e in Selection(s, q) <==> e in s && Selected(e, q)
    {
      assert e in Selection(s, q) <==> multiset(Selection(s, q))[e] > 0;
      assert e in s <==> multiset(s)[e] > 0;
    }
  }

  /**
    The listing is exactly the top of the selection: only rows that match
    the filters, newest first, as many as the limit allows (all of them for
    a negative limit), and every matching row left out is no newer than
    every row returned.
   */
  lemma EventsListIsTopOfSelection(c: Coordinator, q: EventQuery)
    ensures var lim := q.limit.GetOr(DefaultLimit);
      |EventsList(c, q)| == if lim < 0 then |Selection(c.events, q)| else Min(lim, |Selection(c.events, q)|)
    ensures forall i :: 0 <= i < |EventsList(c, q)| ==>
      EventsList(c, q)[i].event in c.events && Selected(EventsList(c, q)[i].event, q)
    ensures SortedDesc(EventsOf(EventsList(c, q)))
    ensures multiset(EventsOf(EventsList(c, q))) <= multiset(Selection(c.events, q))
    ensures LeftOutNoNewer(EventsOf(EventsList(c, q)), Selection(c.events, q))
  {
    var sel := Selection(c.events, q);
    var rows := ApplyLimit(SortDesc(sel), q.limit.GetOr(DefaultLimit));
    RowsOfList(c, q);
    LimitedTop(sel, q.limit.GetOr(DefaultLimit));
    SelectionMembers(c.events, q);
    ListedMembers(c, q, rows, sel);
  }

  /** The listed events are the first rows of the sorted selection. */
  lemma RowsOfList(c: Coordinator, q: EventQuery)
    ensures EventsOf(EventsList(c, q)) == ApplyLimit(SortDesc(Selection(c.events, q)), q.limit.GetOr(DefaultLimit))
  {
  }

  lemma ListedMembers(c: Coordinator, q: EventQuery, rows: seq<Event>, sel: seq<Event>)
    requires EventsOf(EventsList(c, q)) == rows
    requires multiset(rows) <= multiset(sel)
    requires forall e :: e in sel <==> e in c.events && Selected(e, q)
    ensures forall i :: 0 <= i < |EventsList(c, q)| ==>
      EventsList(c, q)[i].event in c.events && Selected(EventsList(c, q)[i].event, q)
  {
    var r := EventsList(c, q);
    forall i | 0 <= i < |r|
      ensures r[i].event in c.events && Selected(r[i].event, q)
    {
      assert rows[i] == r[i].event;
      assert rows[i] in multiset(rows);
    }
  }

  /**
    Every row of `sel` that `rows` leaves out (some copy of it is in `sel`
    but not in `rows`) is no newer than any row of `rows`.
   */
  ghost predicate LeftOutNoNewer(rows: seq<Event>, sel: seq<Event>)
  {
    forall i, e :: 0 <= i < |rows| && multiset(rows)[e] < multiset(sel)[e] ==> rows[i].timestamp >= e.timestamp
  }

  lemma SplitLeftOut(rows: seq<Event>, rest: seq<Event>, sel: seq<Event>)
    requires multiset(rows) + multiset(rest) == multiset(sel) && NoOlderThan(rows, rest)
    ensures LeftOutNoNewer(rows, sel)
  {
    forall i, e | 0 <= i < |rows| && multiset(rows)[e] < multiset(sel)[e]
      ensures rows[i].timestamp >= e.timestamp
    {
      assert multiset(rest)[e] > 0;
      assert e in rest;
    }
  }

  /** The first rows of the sorted sequence, limited, are sorted and at least as new as everything cut off. */
  lemma LimitedTop(sel: seq<Event>, lim: int)
    ensures var rows := ApplyLimit(SortDesc(sel), lim);
      && SortedDesc(rows)
      && multiset(rows) <= multiset(sel)
      && LeftOutNoNewer(rows, sel)
  {
    var sorted := SortDesc(sel);
    var rows := ApplyLimit(sorted, lim);
    var rest := sorted[|rows|..];
    SplitMultiset(sorted, |rows|);
    TopRowsNoOlder(sorted, |rows|);
    SplitLeftOut(rows, rest, sel);
  }

  /** Every row of `top` is at least as new as every row of `rest`. */
  predicate NoOlderThan(top: seq<Event>, rest: seq<Event>)
  {
    forall i, e :: 0 <= i < |top| && e in rest ==> top[i].timestamp >= e.timestamp
  }

  lemma SplitMultiset(s: seq<Event>, k: nat)
    requires k <= |s|
    ensures multiset(s[..k]) + multiset(s[k..]) == multiset(s)
  {
    assert s == s[..k] + s[k..];
  }

  /** In a newest-first sequence, each of the first `k` rows is no older than any later row. */
  lemma TopRowsNoOlder(s: seq<Event>, k: nat)
    requires SortedDesc(s) && k <= |s|
    ensures NoOlderThan(s[..k], s[k..])
  {
    forall i, e | 0 <= i < k && e in s[k..]
      ensures s[i].timestamp >= e.timestamp
    {
      var m :| 0 <= m < |s[k..]| && s[k..][m] == e;
      assert s[k + m] == e;
    }
  }

  /** `camera_id=0` is falsy and filters nothing, exactly as if it were absent. */
  lemma ZeroCameraIdIgnored(c: Coordinator, q: EventQuery)
    ensures EventsList(c, q.(cameraId := Some(0))) == EventsList(c, q.(cameraId := None))
  {
    SelectionIgnoresZero(c.events, q);
  }

  lemma {:induction false} SelectionIgnoresZero(s: seq<Event>, q: EventQuery)
    ensures Selection(s, q.(cameraId := Some(0))) == Selection(s, q.(cameraId := None))
    decreases |s|
  {
    if |s| > 0 {
      SelectionIgnoresZero(s[1..], q);
    }
  }

  /** A camera filter returns rows of that camera only; `limit=0` returns nothing. */
  lemma CameraFilterAndZeroLimit(c: Coordinator, q: EventQuery)
    ensures q.cameraId.Some? && q.cameraId.value != 0 ==>
      forall i :: 0 <= i < |EventsList(c, q)| ==> EventsList(c, q)[i].event.cameraId == q.cameraId.value
    ensures q.limit == Some(0) ==> EventsList(c, q) == []
  {
    EventsListIsTopOfSelection(c, q);
  }

  /** A motion event pushed by a registered edge node lands in the log as a `motion` row of its camera. */
  lemma PushedMotionIsLogged(c: Coordinator, user: string, id: CamId, now: Time)
    requires Wf(c) && id in c.cameras && c.cameras[id].piUser == user
    ensures var r := EventsCreate(c, PushRequest(Some(user), Some(PushedEvent(Some("motion"), Some("Motion detected")))), now);
      r.response == Ok(None) && r.state.events == c.events + [Event(id, "motion", "Motion detected", now)]
  {
  }
}

=== FILE: frame_source.dfy ===
/**
  The edge node's frame slot (`CameraStream`): a reader keeps the latest
  decoded frame from the camera's RTSP stream, and the HTTP handlers take
  JPEG copies of it.

  Frames are opaque; a JPEG is modelled as the frame it encodes and the
  quality it was encoded at. The reader's `time.time()` window check is a
  boolean on each successful read.
 */
module FrameSource {
  import opened Common

  /** `get_frame_jpeg`'s default quality, and the qualities `/stream` and `/snapshot` ask for. */
  const DefaultQuality: int := 80
  const StreamQuality: int := 70
  const SnapshotQuality: int := 95

  /** Seconds slept before reopening the stream after a failed read. */
  const ReconnectDelay: int := 5

  const NoFrameMessage := "No frame available"
  const ServiceUnavailable: int := 503

  datatype Frame = Frame(id: nat)

  datatype Jpeg = Jpeg(frame: Frame, quality: int)

  /**
    `running` is the reader loop's flag, `sessions` counts the captures
    opened so far, `lastFrame` is the slot, and `frameCount` the frames
    read since the last FPS window closed.
   */
  datatype Stream = Stream(running: bool, sessions: nat, lastFrame: Option<Frame>, frameCount: nat)

  /** One `cap.read()`: a frame (with whether the 5-second FPS window has closed) or a failure. */
  datatype Read = Got(frame: Frame, windowClosed: bool) | ReadFailed

  function Initial(): (s: Stream)
    ensures !s.running && s.lastFrame.None?
  {
    Stream(false, 0, None, 0)
  }

  /** `start`: open a capture; the reader runs only when the capture opened. */
  function Start(s: Stream, isOpened: bool): (r: (Stream, bool))
    ensures r.1 == isOpened
    ensures r.0.running == (s.running || isOpened)
    ensures r.0.sessions == s.sessions + 1
    ensures r.0.lastFrame == s.lastFrame && r.0.frameCount == s.frameCount
  {
    var s1 := s.(sessions := s.sessions + 1);
    if isOpened then (s1.(running := true), true) else (s1, false)
  }

  /**
    One turn of `_read_loop`. A successful read replaces the slot and
    counts the frame (the count restarts when the FPS window closes); a
    failed read leaves the slot as it is and opens a new capture.
   */
  function ReadStep(s: Stream, read: Read): (r: Stream)
    ensures r.running == s.running
    ensures !s.running ==> r == s
    ensures s.running && read.Got? ==>
      r == s.(lastFrame := Some(read.frame), frameCount := if read.windowClosed then 0 else s.frameCount + 1)
    ensures s.running && read.ReadFailed? ==> r == s.(sessions := s.sessions + 1)
  {
    if !s.running then s
    else
      match read
      case ReadFailed => s.(sessions := s.sessions + 1)
      case Got(frame, windowClosed) =>
        var counted := s.(lastFrame := Some(frame), frameCount := s.frameCount + 1);
        if windowClosed then counted.(frameCount := 0) else counted
  }

  /** The failed reads of a trace: each one makes the loop open a new capture. */
  function Reopens(trace: seq<Read>): nat
    decreases |trace|
  {
    if |trace| == 0 then 0 else (if trace[0].ReadFailed? then 1 else 0) + Reopens(trace[1..])
  }

  /**
    `while self.running`: the reads of a trace in turn. The flag is never
    changed by the loop, a capture is opened once per failed read, and a
    slot that has held a frame never empties again.
   */
  function ReadRun(s: Stream, trace: seq<Read>): (r: Stream)
    ensures r.running == s.running
    ensures !s.running ==> r == s
    ensures s.running ==> r.sessions == s.sessions + Reopens(trace)
    ensures s.lastFrame.Some? ==> r.lastFrame.Some?
    decreases |trace|
  {
    if |trace| == 0 then s else ReadRun(ReadStep(s, trace[0]), trace[1..])
  }

  /** `stop`: the reader loop ends; the slot keeps its frame. */
  function Stop(s: Stream): (r: Stream)
    ensures !r.running && r.lastFrame == s.lastFrame
  {
    s.(running := false)
  }

  /** `get_frame_jpeg`: `None` exactly when no frame has arrived, otherwise the slot encoded at `quality`. */
  function GetFrameJpeg(s: Stream, quality: int): (r: Option<Jpeg>)
    ensures r.None? <==> s.lastFrame.None?
    ensures r.Some? ==> r.value.frame == s.lastFrame.value && r.value.quality == quality
  {
    match s.lastFrame
    case None => None
    case Some(f) => Some(Jpeg(f, quality))
  }

  datatype SnapshotReply = Image(jpeg: Jpeg) | Unavailable(status: int, message: string)

  /** The `/snapshot` handler (after authentication): the slot at quality 95, or 503. */
  function Snapshot(s: Stream): (r: SnapshotReply)
    ensures r.Unavailable? <==> s.lastFrame.None?
    ensures r.Unavailable? ==> r == Unavailable(ServiceUnavailable, NoFrameMessage)
    ensures r.Image? ==> r.jpeg == Jpeg(s.lastFrame.value, SnapshotQuality)
  {
    match GetFrameJpeg(s, SnapshotQuality)
    case None => Unavailable(ServiceUnavailable, NoFrameMessage)
    case Some(j) => Image(j)
  }

  /** One part of the `/stream` MJPEG response: the slot at quality 70, or nothing yet. */
  function StreamPart(s: Stream): (r: Option<Jpeg>)
    ensures r.None? <==> s.lastFrame.None?
    ensures r.Some? ==> r.value == Jpeg(s.lastFrame.value, StreamQuality)
  {
    GetFrameJpeg(s, StreamQuality)
  }

  // ---------------------------------------------------------------------------
  // Properties of a run of the reader
  // ---------------------------------------------------------------------------

  /** The frame of the last successful read, if any. */
  function LastGot(trace: seq<Read>): Option<Frame>
    decreases |trace|
  {
    if |trace| == 0 then None
    else if trace[|trace| - 1].Got? then Some(trace[|trace| - 1].frame)
    else LastGot(trace[..|trace| - 1])
  }

  lemma {:induction false} LastGotCons(r: Read, trace: seq<Read>)
    ensures LastGot([r] + trace) == if LastGot(trace).Some? then LastGot(trace) else if r.Got? then Some(r.frame) else None
    decreases |trace|
  {
    var all := [r] + trace;
    if |trace| == 0 {
      assert all == [r];
      assert all[..0] == [];
    } else {
      assert all[|all| - 1] == trace[|trace| - 1];
      assert all[..|all| - 1] == [r] + trace[..|trace| - 1];
      if !trace[|trace| - 1].Got? {
        LastGotCons(r, trace[..|trace| - 1]);
      }
    }
  }

  /**
    While the reader runs, the slot holds the frame of the latest
    successful read; when every read failed it keeps what it held.
   */
  lemma {:induction false} SlotHoldsLatestFrame(s: Stream, trace: seq<Read>)
    requires s.running
    ensures var r := ReadRun(s, trace);
      && r.running
      && r.lastFrame == if LastGot(trace).Some? then LastGot(trace) else s.lastFrame
    decreases |trace|
  {
    if |trace| > 0 {
      SlotHoldsLatestFrame(ReadStep(s, trace[0]), trace[1..]);
      assert trace == [trace[0]] + trace[1..];
      LastGotCons(trace[0], trace[1..]);
    }
  }

  /** Once a frame has arrived the slot is never empty again, so no later JPEG request returns `None`. */
  lemma FrameNeverLost(s: Stream, trace: seq<Read>, quality: int)
    requires s.running && s.lastFrame.Some?
    ensures GetFrameJpeg(ReadRun(s, trace), quality).Some?
  {
    SlotHoldsLatestFrame(s, trace);
  }

  /**
    From a fresh stream that opened, `get_frame_jpeg` returns `None` after
    a run of reads exactly when none of them succeeded.
   */
  lemma NoFrameIffNoRead(trace: seq<Read>, quality: int)
    ensures var s := Start(Initial(), true).0;
      GetFrameJpeg(ReadRun(s, trace), quality).None? <==> LastGot(trace).None?
  {
    SlotHoldsLatestFrame(Start(Initial(), true).0, trace);
  }

  /** A stream whose capture never opened serves nothing, whatever the reads. */
  lemma UnopenedServesNothing(trace: seq<Read>)
    ensures Snapshot(ReadRun(Start(Initial(), false).0, trace)) == Unavailable(ServiceUnavailable, NoFrameMessage)
  {
    StoppedReaderIsInert(Start(Initial(), false).0, trace);
  }

  lemma {:induction false} StoppedReaderIsInert(s: Stream, trace: seq<Read>)
    requires !s.running
    ensures ReadRun(s, trace) == s
    decreases |trace|
  {
    if |trace| > 0 {
      StoppedReaderIsInert(ReadStep(s, trace[0]), trace[1..]);
    }
  }
}

=== FILE: health.dfy ===
/**
  The coordinator's background thread (`health_check_loop`). Every cycle it
  probes each camera's `/status` endpoint, writes the outcome back as
  `is_online`/`last_seen`, asks for a recording wherever a reachable
  camera has none running, and then runs the retention sweep.

  The probe replies, the spawn outcomes and the clock readings are
  parameters: each camera's own readings within a pass, and a separate one
  for the sweep. The source hands each start to its own thread; the model
  runs the starts inline, in listing order, which is one of the
  interleavings the source allows.
 */
module Health {
  import opened Common
  import opened ServerState
  import Recording
  import Retention

  /** `HEALTH_CHECK_INTERVAL`: seconds slept before each cycle. */
  const HealthCheckInterval: int := 30

  /** The outcome of `requests.get(.../status)`: a status code, or an exception (timeout, refused, ...). */
  datatype Probe = Status(code: int) | Unreachable

  /** `if not cam["pi_ip"]: continue` — only cameras with a non-empty address are probed. */
  predicate HasAddress(cam: Camera)
  {
    Truthy(cam.piIp)
  }

  /** The row update for one probe: 200 marks the camera online and seen now; anything else marks it offline. */
  function Reconciled(cam: Camera, p: Probe, now: Time): (r: Camera)
    ensures r.(online := cam.online, lastSeen := cam.lastSeen) == cam
    ensures r.online <==> p == Status(OkStatus)
    ensures r.lastSeen == if p == Status(OkStatus) then Some(now) else cam.lastSeen
  {
    if p == Status(OkStatus) then cam.(online := true, lastSeen := Some(now)) else cam.(online := false)
  }

  /** The pass asks for a recording: the camera is probed, answered 200, and has no running process. */
  predicate WantsStart(c: Coordinator, id: CamId, p: Probe)
  {
    id in c.cameras && HasAddress(c.cameras[id]) && p == Status(OkStatus) && !IsRecording(c.procs, id)
  }

  function StartEvent(id: CamId, now: Time): Event
  {
    Event(id, RecordingStartKind, "Recording started", now)
  }

  /**
    The clock readings of one pass. The source calls `datetime.utcnow()`
    afresh for each camera: when a 200 is written back (`seenAt`) and when
    the recording start is logged (`startAt`). Each reading comes after the
    probes before it, each of which may have waited out its timeout.
   */
  datatype PassClock = PassClock(seenAt: CamId -> Time, startAt: CamId -> Time)

  /** One iteration of the loop over the camera list. */
  function Visit(c: Coordinator, id: CamId, p: Probe, s: Recording.Spawn, clock: PassClock): (v: Coordinator)
    ensures v.(cameras := c.cameras, procs := c.procs, events := c.events) == c
    ensures v.cameras.Keys == c.cameras.Keys
    ensures forall other :: other in c.cameras && other != id ==> v.cameras[other] == c.cameras[other]
    ensures id in c.cameras ==>
      v.cameras[id] == if HasAddress(c.cameras[id]) then Reconciled(c.cameras[id], p, clock.seenAt(id)) else c.cameras[id]
    ensures v.procs == if WantsStart(c, id, p) && s.Spawned? then c.procs[id := Handle(s.pid, true)] else c.procs
    ensures v.events == if WantsStart(c, id, p) && s.Spawned? then c.events + [StartEvent(id, clock.startAt(id))] else c.events
  {
    if id !in c.cameras || !HasAddress(c.cameras[id]) then c
    else
      var probed := c.(cameras := c.cameras[id := Reconciled(c.cameras[id], p, clock.seenAt(id))]);
      if WantsStart(c, id, p) then Recording.StartRecording(probed, id, s, clock.startAt(id)) else probed
  }

  /** A pass: the state it leaves and the cameras it asked to start, in listing order. */
  datatype PassResult = PassResult(state: Coordinator, requested: seq<CamId>)

  /**
    One pass over `order`, the listing `get_all_cameras` returned at its
    start (`ORDER BY name`); `probe` and `spawn` give each camera's probe
    reply and spawn outcome.
   */
  function Pass(c: Coordinator, order: seq<CamId>, probe: CamId -> Probe, spawn: CamId -> Recording.Spawn, clock: PassClock): (r: PassResult)
    ensures r.state.(cameras := c.cameras, procs := c.procs, events := c.events) == c
    ensures r.state.cameras.Keys == c.cameras.Keys
    decreases |order|
  {
    if |order| == 0 then PassResult(c, [])
    else
      var id := order[0];
      var rest := Pass(Visit(c, id, probe(id), spawn(id), clock), order[1..], probe, spawn, clock);
      PassResult(rest.state, (if WantsStart(c, id, probe(id)) then [id] else []) + rest.requested)
  }

  /** Listed, probed with 200, and without a running process at the start of the pass. */
  predicate Wanted(c: Coordinator, order: seq<CamId>, probe: CamId -> Probe, id: CamId)
  {
    id in order && WantsStart(c, id, probe(id))
  }

  /** Wanted, and the spawn succeeded. */
  predicate Launched(c: Coordinator, order: seq<CamId>, probe: CamId -> Probe, spawn: CamId -> Recording.Spawn, id: CamId)
  {
    Wanted(c, order, probe, id) && spawn(id).Spawned?
  }

  /** The `recording_start` rows a pass appends: one per launched camera, in listing order. */
  function StartLog(c: Coordinator, order: seq<CamId>, probe: CamId -> Probe, spawn: CamId -> Recording.Spawn, clock: PassClock): seq<Event>
    decreases |order|
  {
    if |order| == 0 then []
    else
      var id := order[0];
      (if WantsStart(c, id, probe(id)) && spawn(id).Spawned? then [StartEvent(id, clock.startAt(id))] else [])
        + StartLog(c, order[1..], probe, spawn, clock)
  }

  /** Every row a pass logs is a `recording_start` for a launched camera, stamped with that camera's start reading. */
  lemma {:induction false} StartLogRows(c: Coordinator, order: seq<CamId>, probe: CamId -> Probe, spawn: CamId -> Recording.Spawn, clock: PassClock)
    ensures forall e :: e in StartLog(c, order, probe, spawn, clock) ==>
      e.kind == RecordingStartKind && e.timestamp == clock.startAt(e.cameraId) && Launched(c, order, probe, spawn, e.cameraId)
    decreases |order|
  {
    if |order| > 0 {
      StartLogRows(c, order[1..], probe, spawn, clock);
      forall id | id in order[1..]
        ensures id in order
      {
        assert order == [order[0]] + order[1..];
      }
    }
  }

  predicate Distinct(order: seq<CamId>)
  {
    forall i, j :: 0 <= i < j < |order| ==> order[i] != order[j]
  }

  /** A visit changes nothing that decides whether a different camera wants a start. */
  lemma VisitKeepsOthersWants(c: Coordinator, id: CamId, p: Probe, s: Recording.Spawn, clock: PassClock, other: CamId, q: Probe)
    requires other != id
    ensures WantsStart(Visit(c, id, p, s, clock), other, q) == WantsStart(c, other, q)
  {
  }

  // ---------------------------------------------------------------------------
  // Closed forms of one pass
  // ---------------------------------------------------------------------------

  /**
    Row updates: a listed camera with an address is reconciled with its
    probe; a camera without an address, or not listed, keeps its row exactly.
   */
  lemma {:induction false} PassCameras(c: Coordinator, order: seq<CamId>, probe: CamId -> Probe, spawn: CamId -> Recording.Spawn, clock: PassClock)
    ensures var r := Pass(c, order, probe, spawn, clock).state;
      forall id :: id in c.cameras ==>
        r.cameras[id] == if id in order && HasAddress(c.cameras[id]) then Reconciled(c.cameras[id], probe(id), clock.seenAt(id)) else c.cameras[id]
    decreases |order|
  {
    if |order| > 0 {
      var id0 := order[0];
      var v := Visit(c, id0, probe(id0), spawn(id0), clock);
      PassCameras(v, order[1..], probe, spawn, clock);
      forall id | id in c.cameras
        ensures Pass(c, order, probe, spawn, clock).state.cameras[id] ==
          if id in order && HasAddress(c.cameras[id]) then Reconciled(c.cameras[id], probe(id), clock.seenAt(id)) else c.cameras[id]
      {
        assert id in order <==> id == id0 || id in order[1..] by {
          assert order == [id0] + order[1..];
        }
      }
    }
  }

  /** The pass asks for a start for exactly the listed cameras probed with 200 and without a running process. */
  lemma {:induction false} PassRequests(c: Coordinator, order: seq<CamId>, probe: CamId -> Probe, spawn: CamId -> Recording.Spawn, clock: PassClock)
    ensures var r := Pass(c, order, probe, spawn, clock);
      forall id :: id in r.requested <==> Wanted(c, order, probe, id)
    decreases |order|
  {
    if |order| > 0 {
      var id0 := order[0];
      var v := Visit(c, id0, probe(id0), spawn(id0), clock);
      PassRequests(v, order[1..], probe, spawn, clock);
      var r := Pass(c, order, probe, spawn, clock);
      var head := if WantsStart(c, id0, probe(id0)) then [id0] else [];
      assert r.requested == head + Pass(v, order[1..], probe, spawn, clock).requested;
      forall id
        ensures id in r.requested <==> Wanted(c, order, probe, id)
      {
        assert id in r.requested <==> id in head || Wanted(v, order[1..], probe, id);
        assert id in order <==> id == id0 || id in order[1..] by {
          assert order == [id0] + order[1..];
        }
        if id != id0 {
          VisitKeepsOthersWants(c, id0, probe(id0), spawn(id0), clock, id, probe(id));
        } else if !WantsStart(c, id0, probe(id0)) {
          assert v.procs == c.procs;
          assert !WantsStart(v, id0, probe(id0));
        }
      }
    }
  }

  /**
    The process table: an entry is added (a running handle) exactly for the
    launched cameras, and every other entry stays as it was. A pass never
    removes an entry, so an offline camera keeps its recording.
   */
  ghost predicate ProcsAfterPass(c: Coordinator, r: Coordinator, order: seq<CamId>, probe: CamId -> Probe, spawn: CamId -> Recording.Spawn)
  {
    && (forall id :: id in r.procs <==> id in c.procs || Launched(c, order, probe, spawn, id))
    && (forall id :: id in r.procs ==>
          r.procs[id] == if Launched(c, order, probe, spawn, id) then Handle(spawn(id).pid, true) else c.procs[id])
  }

  lemma {:induction false} PassProcs(c: Coordinator, order: seq<CamId>, probe: CamId -> Probe, spawn: CamId -> Recording.Spawn, clock: PassClock)
    ensures ProcsAfterPass(c, Pass(c, order, probe, spawn, clock).state, order, probe, spawn)
    decreases |order|
  {
    if |order| > 0 {
      var id0 := order[0];
      var v := Visit(c, id0, probe(id0), spawn(id0), clock);
      PassProcs(v, order[1..], probe, spawn, clock);
      var r := Pass(c, order, probe, spawn, clock).state;
      assert r == Pass(v, order[1..], probe, spawn, clock).state;
      forall id
        ensures (id in r.procs <==> id in c.procs || Launched(c, order, probe, spawn, id))
        ensures id in r.procs ==>
          r.procs[id] == if Launched(c, order, probe, spawn, id) then Handle(spawn(id).pid, true) else c.procs[id]
      {
        assert id in order <==> id == id0 || id in order[1..] by {
          assert order == [id0] + order[1..];
        }
        if id != id0 {
          VisitKeepsOthersWants(c, id0, probe(id0), spawn(id0), clock, id, probe(id));
        }
      }
    }
  }

  /** If no camera of `order` is launched, `StartLog` is empty. */
  lemma {:induction false} StartLogAgrees(c: Coordinator, d: Coordinator, order: seq<CamId>, probe: CamId -> Probe, spawn: CamId -> Recording.Spawn, clock: PassClock)
    requires forall id :: id in order ==> WantsStart(c, id, probe(id)) == WantsStart(d, id, probe(id))
    ensures StartLog(c, order, probe, spawn, clock) == StartLog(d, order, probe, spawn, clock)
    decreases |order|
  {
    if |order| > 0 {
      assert order[0] in order;
      assert forall id :: id in order[1..] ==> id in order;
      StartLogAgrees(c, d, order[1..], probe, spawn, clock);
    }
  }

  lemma {:induction false} NothingLaunchedLogsNothing(c: Coordinator, order: seq<CamId>, probe: CamId -> Probe, spawn: CamId -> Recording.Spawn, clock: PassClock)
    requires forall id :: !Launched(c, order, probe, spawn, id)
    ensures StartLog(c, order, probe, spawn, clock) == []
    decreases |order|
  {
    if |order| > 0 {
      assert order[0] in order;
      forall id
        ensures !Launched(c, order[1..], probe, spawn, id)
      {
        assert id in order[1..] ==> id in order;
        assert !Launched(c, order, probe, spawn, id);
      }
      NothingLaunchedLogsNothing(c, order[1..], probe, spawn, clock);
      assert !Launched(c, order, probe, spawn, order[0]);
    }
  }

  lemma DistinctTail(order: seq<CamId>)
    requires |order| > 0 && Distinct(order)
    ensures Distinct(order[1..]) && order[0] !in order[1..]
  {
    forall i, j | 0 <= i < j < |order[1..]|
      ensures order[1..][i] != order[1..][j]
    {
      assert order[1..][i] == order[i + 1] && order[1..][j] == order[j + 1];
    }
    forall k | 0 <= k < |order[1..]|
      ensures order[1..][k] != order[0]
    {
      assert order[1..][k] == order[k + 1];
    }
  }

  /** Visiting the head of a listing without repeats does not change what the tail logs. */
  lemma VisitKeepsTailLog(c: Coordinator, order: seq<CamId>, probe: CamId -> Probe, spawn: CamId -> Recording.Spawn, clock: PassClock)
    requires |order| > 0 && order[0] !in order[1..]
    ensures StartLog(Visit(c, order[0], probe(order[0]), spawn(order[0]), clock), order[1..], probe, spawn, clock)
         == StartLog(c, order[1..], probe, spawn, clock)
  {
    var id0 := order[0];
    var v := Visit(c, id0, probe(id0), spawn(id0), clock);
    forall id | id in order[1..]
      ensures WantsStart(v, id, probe(id)) == WantsStart(c, id, probe(id))
    {
      VisitKeepsOthersWants(c, id0, probe(id0), spawn(id0), clock, id, probe(id));
    }
    StartLogAgrees(v, c, order[1..], probe, spawn, clock);
  }

  lemma PassUnfoldEvents(c: Coordinator, order: seq<CamId>, probe: CamId -> Probe, spawn: CamId -> Recording.Spawn, clock: PassClock)
    requires |order| > 0
    ensures Pass(c, order, probe, spawn, clock).state.events
         == Pass(Visit(c, order[0], probe(order[0]), spawn(order[0]), clock), order[1..], probe, spawn, clock).state.events
  {
  }

  /** The row the head of a listing contributes to `StartLog`. */
  function HeadLog(c: Coordinator, id: CamId, probe: CamId -> Probe, spawn: CamId -> Recording.Spawn, clock: PassClock): seq<Event>
  {
    if WantsStart(c, id, probe(id)) && spawn(id).Spawned? then [StartEvent(id, clock.startAt(id))] else []
  }

  lemma StartLogUnfold(c: Coordinator, order: seq<CamId>, probe: CamId -> Probe, spawn: CamId -> Recording.Spawn, clock: PassClock)
    requires |order| > 0
    ensures StartLog(c, order, probe, spawn, clock) == HeadLog(c, order[0], probe, spawn, clock) + StartLog(c, order[1..], probe, spawn, clock)
  {
  }

  lemma VisitEvents(c: Coordinator, id: CamId, probe: CamId -> Probe, spawn: CamId -> Recording.Spawn, clock: PassClock)
    ensures Visit(c, id, probe(id), spawn(id), clock).events == c.events + HeadLog(c, id, probe, spawn, clock)
  {
  }

  /** One step of `PassEvents`: the equation for the tail, visited from the head's state, gives it for the whole listing. */
  lemma PassEventsStep(c: Coordinator, order: seq<CamId>, probe: CamId -> Probe, spawn: CamId -> Recording.Spawn, clock: PassClock)
    requires |order| > 0 && order[0] !in order[1..]
    requires var v := Visit(c, order[0], probe(order[0]), spawn(order[0]), clock);
      Pass(v, order[1..], probe, spawn, clock).state.events == v.events + StartLog(v, order[1..], probe, spawn, clock)
    ensures Pass(c, order, probe, spawn, clock).state.events == c.events + StartLog(c, order, probe, spawn, clock)
  {
    VisitKeepsTailLog(c, order, probe, spawn, clock);
    PassUnfoldEvents(c, order, probe, spawn, clock);
    StartLogUnfold(c, order, probe, spawn, clock);
    VisitEvents(c, order[0], probe, spawn, clock);
    AppendAssoc(c.events, HeadLog(c, order[0], probe, spawn, clock), StartLog(c, order[1..], probe, spawn, clock));
  }

  /** The events a pass appends are its `recording_start` rows, one per launched camera, in listing order. */
  lemma {:induction false} PassEvents(c: Coordinator, order: seq<CamId>, probe: CamId -> Probe, spawn: CamId -> Recording.Spawn, clock: PassClock)
    requires Distinct(order)
    ensures Pass(c, order, probe, spawn, clock).state.events == c.events + StartLog(c, order, probe, spawn, clock)
    decreases |order|
  {
    if |order| > 0 {
      DistinctTail(order);
      PassEvents(Visit(c, order[0], probe(order[0]), spawn(order[0]), clock), order[1..], probe, spawn, clock);
      PassEventsStep(c, order, probe, spawn, clock);
    }
  }

  // ---------------------------------------------------------------------------
  // Consequences
  // ---------------------------------------------------------------------------

  /** A camera without an address is never touched: same row, same process entry, no start. */
  lemma UnaddressedUntouched(c: Coordinator, order: seq<CamId>, probe: CamId -> Probe, spawn: CamId -> Recording.Spawn, clock: PassClock, id: CamId)
    requires id in c.cameras && !HasAddress(c.cameras[id])
    ensures var r := Pass(c, order, probe, spawn, clock);
      && r.state.cameras[id] == c.cameras[id]
      && id !in r.requested
      && (id in r.state.procs <==> id in c.procs)
      && (id in c.procs ==> r.state.procs[id] == c.procs[id])
  {
    PassCameras(c, order, probe, spawn, clock);
    PassRequests(c, order, probe, spawn, clock);
    PassProcs(c, order, probe, spawn, clock);
  }

  /**
    A probe that is not 200 (another status or an exception) marks the
    camera offline, keeps `last_seen`, and leaves its process entry alone:
    being offline never stops a recording.
   */
  lemma FailedProbeKeepsRecording(c: Coordinator, order: seq<CamId>, probe: CamId -> Probe, spawn: CamId -> Recording.Spawn, clock: PassClock, id: CamId)
    requires id in c.cameras && HasAddress(c.cameras[id]) && id in order
    requires probe(id) != Status(OkStatus)
    ensures var r := Pass(c, order, probe, spawn, clock).state;
      && !r.cameras[id].online
      && r.cameras[id].lastSeen == c.cameras[id].lastSeen
      && (id in r.procs <==> id in c.procs)
      && (id in c.procs ==> r.procs[id] == c.procs[id])
  {
    PassCameras(c, order, probe, spawn, clock);
    PassProcs(c, order, probe, spawn, clock);
  }

  /**
    A second pass with the same replies, whatever its clock readings,
    starts nothing and logs nothing; the only change it can make is a later
    `last_seen` for the cameras that answered 200. With the same readings it
    changes nothing at all.
   */
  lemma PassIdempotent(c: Coordinator, order: seq<CamId>, probe: CamId -> Probe, spawn: CamId -> Recording.Spawn, clock: PassClock, later: PassClock)
    requires Distinct(order)
    ensures var once := Pass(c, order, probe, spawn, clock).state;
      var twice := Pass(once, order, probe, spawn, later).state;
      && twice.procs == once.procs
      && twice.events == once.events
      && twice.cameras.Keys == once.cameras.Keys
      && (forall id :: id in once.cameras ==> twice.cameras[id].(lastSeen := once.cameras[id].lastSeen) == once.cameras[id])
      && (later == clock ==> twice == once)
  {
    var once := Pass(c, order, probe, spawn, clock).state;
    var twice := Pass(once, order, probe, spawn, later).state;
    RepeatPassCameras(c, order, probe, spawn, clock, later);
    RepeatPassLaunchesNothing(c, order, probe, spawn, clock, later);
    NothingLaunchedLogsNothing(once, order, probe, spawn, later);
    PassEvents(once, order, probe, spawn, later);
  }

  /** The rows after a repeat pass: only `last_seen` can move, and with the same readings nothing does. */
  lemma RepeatPassCameras(c: Coordinator, order: seq<CamId>, probe: CamId -> Probe, spawn: CamId -> Recording.Spawn, clock: PassClock, later: PassClock)
    ensures var once := Pass(c, order, probe, spawn, clock).state;
      var twice := Pass(once, order, probe, spawn, later).state;
      && twice.cameras.Keys == once.cameras.Keys
      && (forall id :: id in once.cameras ==> twice.cameras[id].(lastSeen := once.cameras[id].lastSeen) == once.cameras[id])
      && (later == clock ==> twice.cameras == once.cameras)
  {
    var once := Pass(c, order, probe, spawn, clock).state;
    var twice := Pass(once, order, probe, spawn, later).state;
    PassCameras(c, order, probe, spawn, clock);
    PassCameras(once, order, probe, spawn, later);
    forall id | id in once.cameras
      ensures twice.cameras[id].(lastSeen := once.cameras[id].lastSeen) == once.cameras[id]
      ensures later == clock ==> twice.cameras[id] == once.cameras[id]
    {
      assert HasAddress(once.cameras[id]) == HasAddress(c.cameras[id]);
    }
  }

  /** A repeat pass launches no recording, so its process table is the first pass's. */
  lemma RepeatPassLaunchesNothing(c: Coordinator, order: seq<CamId>, probe: CamId -> Probe, spawn: CamId -> Recording.Spawn, clock: PassClock, later: PassClock)
    requires Distinct(order)
    ensures var once := Pass(c, order, probe, spawn, clock).state;
      && (forall id :: !Launched(once, order, probe, spawn, id))
      && Pass(once, order, probe, spawn, later).state.procs == once.procs
  {
    var once := Pass(c, order, probe, spawn, clock).state;
    var twice := Pass(once, order, probe, spawn, later).state;
    PassCameras(c, order, probe, spawn, clock);
    PassProcs(c, order, probe, spawn, clock);
    PassProcs(once, order, probe, spawn, later);
    forall id
      ensures !Launched(once, order, probe, spawn, id)
    {
      if Launched(once, order, probe, spawn, id) {
        assert HasAddress(once.cameras[id]) == HasAddress(c.cameras[id]);
        assert Wanted(c, order, probe, id);
        assert Launched(c, order, probe, spawn, id);
        assert false;
      }
    }
    forall id
      ensures id in twice.procs <==> id in once.procs
      ensures id in once.procs ==> twice.procs[id] == once.procs[id]
    {
      assert !Launched(once, order, probe, spawn, id);
    }
  }

  /** An offline camera that answers 200 again, with a successful spawn, comes back online and recording. */
  lemma RecoveryRestartsRecording(c: Coordinator, order: seq<CamId>, probe: CamId -> Probe, spawn: CamId -> Recording.Spawn, clock: PassClock, id: CamId, pid: nat)
    requires id in c.cameras && HasAddress(c.cameras[id]) && id in order
    requires !IsRecording(c.procs, id)
    requires probe(id) == Status(OkStatus) && spawn(id) == Recording.Spawned(pid)
    ensures var r := Pass(c, order, probe, spawn, clock);
      && r.state.cameras[id].online
      && r.state.cameras[id].lastSeen == Some(clock.seenAt(id))
      && id in r.requested
      && id in r.state.procs
      && r.state.procs[id] == Handle(pid, true)
  {
    PassCameras(c, order, probe, spawn, clock);
    PassRequests(c, order, probe, spawn, clock);
    PassProcs(c, order, probe, spawn, clock);
    assert Launched(c, order, probe, spawn, id);
  }

  // ---------------------------------------------------------------------------
  // Cycles of the loop
  // ---------------------------------------------------------------------------

  /**
    What the world supplies to one cycle: the listing, the probe replies,
    the spawn outcomes, the pass's clock readings, and the `time.time()`
    that `cleanup_old_recordings` reads once the pass is over.
   */
  datatype Tick = Tick(order: seq<CamId>, probe: CamId -> Probe, spawn: CamId -> Recording.Spawn, clock: PassClock, sweepNow: Time)

  /**
    One cycle: the pass, then `cleanup_old_recordings`. An error escaping
    the sweep ends the thread; once it has ended, cycles do nothing.
   */
  function HealthCycle(c: Coordinator, t: Tick): (r: Coordinator)
    ensures !c.healthRunning ==> r == c
    ensures c.healthRunning ==> r.cameras.Keys == c.cameras.Keys && r.maxAgeHours == c.maxAgeHours
  {
    if !c.healthRunning then c
    else
      var p := Pass(c, t.order, t.probe, t.spawn, t.clock).state;
      var sw := Retention.SweepStore(p.recordings, Retention.Cutoff(t.sweepNow, p.maxAgeHours));
      p.(recordings := sw.store, healthRunning := sw.completed)
  }

  /**
    The `while True` loop, one cycle per tick. The set of cameras and the
    retention limit are never changed by it, and a thread that has ended
    stays ended.
   */
  function Run(c: Coordinator, ticks: seq<Tick>): (r: Coordinator)
    ensures r.cameras.Keys == c.cameras.Keys && r.maxAgeHours == c.maxAgeHours
    ensures r.healthRunning ==> c.healthRunning
    decreases |ticks|
  {
    if |ticks| == 0 then c else Run(HealthCycle(c, ticks[0]), ticks[1..])
  }

  /** The thread survives a cycle exactly when the sweep meets no failing file. */
  lemma CycleSurvivesIffFaultless(c: Coordinator, t: Tick)
    requires c.healthRunning
    ensures HealthCycle(c, t).healthRunning <==> Retention.Faultless(c.recordings)
    ensures HealthCycle(c, t).recordings ==
      Retention.SweepStore(c.recordings, Retention.Cutoff(t.sweepNow, c.maxAgeHours)).store
  {
    Retention.SweepCompletes(c.recordings, Retention.Cutoff(t.sweepNow, c.maxAgeHours));
  }

  /** Once the thread has ended, no later cycle changes anything. */
  lemma {:induction false} EndedThreadIsInert(c: Coordinator, ticks: seq<Tick>)
    requires !c.healthRunning
    ensures Run(c, ticks) == c
    decreases |ticks|
  {
    if |ticks| > 0 {
      EndedThreadIsInert(HealthCycle(c, ticks[0]), ticks[1..]);
    }
  }

  predicate FailsThroughout(ticks: seq<Tick>, id: CamId)
  {
    forall k :: 0 <= k < |ticks| ==> id in ticks[k].order && ticks[k].probe(id) != Status(OkStatus)
  }

  /** While a camera's probes keep failing, it never comes online, its `last_seen` stays and its process entry stays. */
  lemma {:induction false} FailuresKeepState(c: Coordinator, ticks: seq<Tick>, id: CamId)
    requires id in c.cameras && HasAddress(c.cameras[id])
    requires FailsThroughout(ticks, id)
    ensures var r := Run(c, ticks);
      && id in r.cameras
      && (r.cameras[id].online ==> c.cameras[id].online)
      && r.cameras[id].lastSeen == c.cameras[id].lastSeen
      && HasAddress(r.cameras[id])
      && (id in r.procs <==> id in c.procs)
      && (id in c.procs ==> r.procs[id] == c.procs[id])
    decreases |ticks|
  {
    if |ticks| > 0 {
      var t := ticks[0];
      var c1 := HealthCycle(c, t);
      if c.healthRunning {
        assert id in t.order && t.probe(id) != Status(OkStatus);
        FailedProbeKeepsRecording(c, t.order, t.probe, t.spawn, t.clock, id);
        PassCameras(c, t.order, t.probe, t.spawn, t.clock);
      }
      assert FailsThroughout(ticks[1..], id) by {
        forall k | 0 <= k < |ticks[1..]|
          ensures id in ticks[1..][k].order && ticks[1..][k].probe(id) != Status(OkStatus)
        {
          assert ticks[1..][k] == ticks[k + 1];
        }
      }
      FailuresKeepState(c1, ticks[1..], id);
    }
  }

  /**
    After one or more consecutive cycles in which a camera's probe fails,
    starting with the thread running, the camera is offline and its
    `last_seen` is what it was before the failures.
   */
  lemma ConsecutiveFailuresMeanOffline(c: Coordinator, ticks: seq<Tick>, id: CamId)
    requires c.healthRunning && |ticks| > 0
    requires id in c.cameras && HasAddress(c.cameras[id])
    requires FailsThroughout(ticks, id)
    ensures var r := Run(c, ticks);
      && id in r.cameras
      && !r.cameras[id].online
      && r.cameras[id].lastSeen == c.cameras[id].lastSeen
      && (id in c.procs ==> id in r.procs && r.procs[id] == c.procs[id])
  {
    var t := ticks[0];
    var c1 := HealthCycle(c, t);
    assert id in t.order && t.probe(id) != Status(OkStatus);
    FailedProbeKeepsRecording(c, t.order, t.probe, t.spawn, t.clock, id);
    PassCameras(c, t.order, t.probe, t.spawn, t.clock);
    assert FailsThroughout(ticks[1..], id) by {
      forall k | 0 <= k < |ticks[1..]|
        ensures id in ticks[1..][k].order && ticks[1..][k].probe(id) != Status(OkStatus)
      {
        assert ticks[1..][k] == ticks[k + 1];
      }
    }
    FailuresKeepState(c1, ticks[1..], id);
  }
}

=== FILE: motion.dfy ===
/**
  The edge node's motion detector (`MotionDetector._detect_loop`): frame
  differencing against a rolling baseline, a cooldown between alerts, and
  a bounded local ring of the alerts raised.

  The image pipeline (decode, grayscale, blur, difference, threshold,
  contours) is left to OpenCV; each tick receives its verdict as a boolean.
  Each alert is also posted to the coordinator; the tick returns it.
 */
module Motion {
  import opened Common
  import FrameSource

  const DefaultThreshold: int := 25
  const DefaultMinArea: int := 5000
  const DefaultCooldown: int := 10

  /** The ring is cut back to its newest `RingKeep` alerts once it grows past `RingLimit`. */
  const RingLimit: nat := 1000
  const RingKeep: nat := 500

  const MotionKind := "motion"
  const MotionMessage := "Motion detected"

  /** The blurred grayscale image of a decoded JPEG. */
  datatype Gray = Blurred(source: FrameSource.Jpeg)

  datatype MotionEvent = MotionEvent(timestamp: Time, kind: string, message: string)

  datatype Detector = Detector(
    threshold: int,
    minArea: int,
    cooldown: int,
    prevGray: Option<Gray>,
    lastAlertTime: Time,
    events: seq<MotionEvent>)

  /** `MotionDetector()`: default parameters, no baseline, never alerted (time 0). */
  function NewDetector(): (d: Detector)
    ensures d.prevGray.None? && d.events == [] && d.lastAlertTime == 0 && d.cooldown == DefaultCooldown
  {
    Detector(DefaultThreshold, DefaultMinArea, DefaultCooldown, None, 0, [])
  }

  /** After an append: past 1000 alerts, keep the newest 500. */
  function Trim(events: seq<MotionEvent>): (r: seq<MotionEvent>)
    ensures |events| <= RingLimit ==> r == events
    ensures |events| > RingLimit ==> |r| == RingKeep
    ensures |r| <= |events| && r == events[|events| - |r|..]
  {
    if |events| > RingLimit then events[|events| - RingKeep..] else events
  }

  datatype TickResult = TickResult(detector: Detector, pushed: Option<MotionEvent>)

  /** Whether a tick with this verdict at time `now` raises an alert: motion, and strictly more than `cooldown` since the last. */
  predicate Alerts(d: Detector, motion: bool, now: Time)
  {
    motion && now - d.lastAlertTime > d.cooldown
  }

  /**
    One turn of the loop. `frame` is `get_frame_jpeg()`; `motion` is the
    contour verdict against the baseline; `now` is the clock.
   */
  function Tick(d: Detector, frame: Option<FrameSource.Jpeg>, motion: bool, now: Time): (r: TickResult)
    ensures r.detector.(prevGray := d.prevGray, lastAlertTime := d.lastAlertTime, events := d.events) == d
    ensures frame.None? ==> r == TickResult(d, None)
    ensures frame.Some? ==> r.detector.prevGray == Some(Blurred(frame.value))
    ensures r.pushed.Some? <==> frame.Some? && d.prevGray.Some? && Alerts(d, motion, now)
    ensures r.pushed.Some? ==>
      && r.pushed.value == MotionEvent(now, MotionKind, MotionMessage)
      && r.detector.lastAlertTime == now
      && r.detector.events == Trim(d.events + [r.pushed.value])
    ensures r.pushed.None? ==> r.detector.lastAlertTime == d.lastAlertTime && r.detector.events == d.events
  {
    match frame
    case None => TickResult(d, None)
    case Some(jpeg) =>
      var gray := Blurred(jpeg);
      if d.prevGray.None? then TickResult(d.(prevGray := Some(gray)), None)
      else if Alerts(d, motion, now) then
        var e := MotionEvent(now, MotionKind, MotionMessage);
        TickResult(d.(lastAlertTime := now, events := Trim(d.events + [e]), prevGray := Some(gray)), Some(e))
      else
        TickResult(d.(prevGray := Some(gray)), None)
  }

  /** The inputs of one turn. */
  datatype TickInput = TickInput(frame: Option<FrameSource.Jpeg>, motion: bool, now: Time)

  datatype RunResult = RunResult(detector: Detector, pushed: seq<MotionEvent>)

  function Run(d: Detector, ticks: seq<TickInput>): (r: RunResult)
    ensures r.detector.cooldown == d.cooldown
    decreases |ticks|
  {
    if |ticks| == 0 then RunResult(d, [])
    else
      var t := Tick(d, ticks[0].frame, ticks[0].motion, ticks[0].now);
      var rest := Run(t.detector, ticks[1..]);
      RunResult(rest.detector, (if t.pushed.Some? then [t.pushed.value] else []) + rest.pushed)
  }

  // ---------------------------------------------------------------------------
  // Single ticks
  // ---------------------------------------------------------------------------

  /** Without a frame nothing changes: not the baseline, not the ring, not the alert time. */
  lemma NoFrameNoChange(d: Detector, motion: bool, now: Time)
    ensures Tick(d, None, motion, now) == TickResult(d, None)
  {
  }

  /** The first frame becomes the baseline and is never compared, whatever the verdict. */
  lemma FirstFrameIsBaseline(d: Detector, jpeg: FrameSource.Jpeg, motion: bool, now: Time)
    requires d.prevGray.None?
    ensures Tick(d, Some(jpeg), motion, now) == TickResult(d.(prevGray := Some(Blurred(jpeg))), None)
  {
  }

  /** A tick at exactly `cooldown` seconds after the last alert raises none (the gate is strict). */
  lemma CooldownIsStrict(d: Detector, jpeg: FrameSource.Jpeg)
    requires d.prevGray.Some?
    ensures Tick(d, Some(jpeg), true, d.lastAlertTime + d.cooldown).pushed.None?
    ensures Tick(d, Some(jpeg), true, d.lastAlertTime + d.cooldown + 1).pushed.Some?
  {
  }

  // ---------------------------------------------------------------------------
  // Runs
  // ---------------------------------------------------------------------------

  /**
    The ring after a run: never more than 1000 alerts, always the newest
    alerts of (old ring, then every alert the run raised) in their order,
    and at least the newest 500 of them (all of them while fewer).
   */
  ghost predicate RingInvariant(before: seq<MotionEvent>, pushed: seq<MotionEvent>, after: seq<MotionEvent>)
  {
    && |after| <= RingLimit
    && IsSuffix(after, before + pushed)
    && |after| >= Min(|before| + |pushed|, RingKeep)
  }

  lemma TickKeepsRing(d: Detector, input: TickInput)
    requires |d.events| <= RingLimit
    ensures var t := Tick(d, input.frame, input.motion, input.now);
      RingInvariant(d.events, if t.pushed.Some? then [t.pushed.value] else [], t.detector.events)
  {
    var t := Tick(d, input.frame, input.motion, input.now);
    if t.pushed.None? {
      assert d.events + [] == d.events;
    }
  }

  lemma RingCompose(before: seq<MotionEvent>, p1: seq<MotionEvent>, mid: seq<MotionEvent>, p2: seq<MotionEvent>, after: seq<MotionEvent>)
    requires RingInvariant(before, p1, mid) && RingInvariant(mid, p2, after)
    ensures RingInvariant(before, p1 + p2, after)
  {
    SuffixAppend(mid, before + p1, p2);
    assert before + p1 + p2 == before + (p1 + p2);
    SuffixTrans(after, mid + p2, before + (p1 + p2));
  }

  lemma {:induction false} RunKeepsRing(d: Detector, ticks: seq<TickInput>)
    requires |d.events| <= RingLimit
    ensures var r := Run(d, ticks);
      RingInvariant(d.events, r.pushed, r.detector.events)
    decreases |ticks|
  {
    var r := Run(d, ticks);
    if |ticks| == 0 {
      assert d.events + r.pushed == d.events;
    } else {
      var t := Tick(d, ticks[0].frame, ticks[0].motion, ticks[0].now);
      var head := if t.pushed.Some? then [t.pushed.value] else [];
      var rest := Run(t.detector, ticks[1..]);
      assert r.pushed == head + rest.pushed;
      TickKeepsRing(d, ticks[0]);
      RunKeepsRing(t.detector, ticks[1..]);
      RingCompose(d.events, head, t.detector.events, rest.pushed, rest.detector.events);
    }
  }

  /** Consecutive alerts of a run, and the first one after the detector's last, are more than `cooldown` apart. */
  predicate Spaced(pushed: seq<MotionEvent>, since: Time, cooldown: int)
  {
    && (|pushed| > 0 ==> pushed[0].timestamp - since > cooldown)
    && forall i :: 0 < i < |pushed| ==> pushed[i].timestamp - pushed[i - 1].timestamp > cooldown
  }

  lemma {:induction false} RunSpacesAlerts(d: Detector, ticks: seq<TickInput>)
    ensures var r := Run(d, ticks);
      && Spaced(r.pushed, d.lastAlertTime, d.cooldown)
      && r.detector.lastAlertTime == (if |r.pushed| > 0 then r.pushed[|r.pushed| - 1].timestamp else d.lastAlertTime)
      && forall e :: e in r.pushed ==> e.kind == MotionKind && e.message == MotionMessage
    decreases |ticks|
  {
    if |ticks| > 0 {
      var t := Tick(d, ticks[0].frame, ticks[0].motion, ticks[0].now);
      var rest := Run(t.detector, ticks[1..]);
      RunSpacesAlerts(t.detector, ticks[1..]);
      var r := Run(d, ticks);
      if t.pushed.Some? {
        assert r.pushed == [t.pushed.value] + rest.pushed;
        forall i | 0 < i < |r.pushed|
          ensures r.pushed[i].timestamp - r.pushed[i - 1].timestamp > d.cooldown
        {
          assert r.pushed[i] == rest.pushed[i - 1];
          if i > 1 {
            assert r.pushed[i - 1] == rest.pushed[i - 2];
          }
        }
      } else {
        assert r.pushed == rest.pushed;
      }
    }
  }

  /** The newest alert a run raised is the newest entry of the ring. */
  lemma NewestAlertRetained(d: Detector, ticks: seq<TickInput>)
    requires |d.events| <= RingLimit
    requires |Run(d, ticks).pushed| > 0
    ensures var r := Run(d, ticks);
      && |r.detector.events| > 0
      && r.detector.events[|r.detector.events| - 1] == r.pushed[|r.pushed| - 1]
  {
    var r := Run(d, ticks);
    RunKeepsRing(d, ticks);
    var all := d.events + r.pushed;
    assert r.detector.events == all[|all| - |r.detector.events|..];
    assert all[|all| - 1] == r.pushed[|r.pushed| - 1];
  }

  /** From a fresh detector, the ring never holds more than 1000 alerts and alerts are more than 10 s apart. */
  lemma FreshDetectorRun(ticks: seq<TickInput>)
    ensures var r := Run(NewDetector(), ticks);
      && |r.detector.events| <= RingLimit
      && IsSuffix(r.detector.events, r.pushed)
      && Spaced(r.pushed, 0, DefaultCooldown)
  {
    var d := NewDetector();
    var r := Run(d, ticks);
    RunKeepsRing(d, ticks);
    RunSpacesAlerts(d, ticks);
    assert d.events + r.pushed == r.pushed;
  }
}

=== FILE: recording.dfy ===
/**
  The recording supervisor (`start_recording` / `stop_recording`): at most
  one encoder process per camera, kept in the table `procs`.

  The source takes the table lock for the liveness check, releases it to
  build the command and spawn, and takes it again to insert; two callers
  can therefore both pass the check. The model is sequential, so the
  "never replaces a running process" guarantee below holds only for
  sequential callers.
 */
module Recording {
  import opened Common
  import opened ServerState

  /** The outcome of `subprocess.Popen`: a new running process, or an exception. */
  datatype Spawn = Spawned(pid: nat) | SpawnFailed

  /**
    `start_recording`: nothing happens while the camera's process runs;
    otherwise a successful spawn installs a running handle and logs
    `recording_start`, and a failed spawn changes nothing at all.
   */
  function StartRecording(c: Coordinator, cam: CamId, spawn: Spawn, now: Time): (r: Coordinator)
    ensures IsRecording(c.procs, cam) ==> r == c
    ensures spawn.SpawnFailed? ==> r == c
    ensures !IsRecording(c.procs, cam) && spawn.Spawned? ==>
      && r.procs == c.procs[cam := Handle(spawn.pid, true)]
      && r.events == c.events + [Event(cam, RecordingStartKind, "Recording started", now)]
    ensures r.(procs := c.procs, events := c.events) == c
    ensures IsRecording(r.procs, cam) <==> IsRecording(c.procs, cam) || spawn.Spawned?
  {
    if IsRecording(c.procs, cam) then c
    else
      match spawn
      case SpawnFailed => c
      case Spawned(pid) =>
        LogEvent(c.(procs := c.procs[cam := Handle(pid, true)]), cam, RecordingStartKind, "Recording started", now)
  }

  /**
    `stop_recording`: the entry is always removed, other entries stay, and
    `recording_stop` is logged only when the removed process was running
    (it is then terminated, waited for, and killed if need be).
   */
  function StopRecording(c: Coordinator, cam: CamId, now: Time): (r: Coordinator)
    ensures cam !in r.procs
    ensures forall other :: other != cam ==> (other in r.procs <==> other in c.procs)
    ensures forall other :: other != cam && other in c.procs ==> r.procs[other] == c.procs[other]
    ensures r.events == if IsRecording(c.procs, cam)
      then c.events + [Event(cam, RecordingStopKind, "Recording stopped", now)]
      else c.events
    ensures r.(procs := c.procs, events := c.events) == c
  {
    var stopped := c.(procs := c.procs - {cam});
    if IsRecording(c.procs, cam) then LogEvent(stopped, cam, RecordingStopKind, "Recording stopped", now)
    else stopped
  }

  /** The environment: the encoder exits on its own (crash or end of input); `poll()` now reports it. */
  function ProcessExited(c: Coordinator, cam: CamId): (r: Coordinator)
    ensures !IsRecording(r.procs, cam)
    ensures r.procs.Keys == c.procs.Keys
    ensures forall other :: other != cam && other in c.procs ==> r.procs[other] == c.procs[other]
    ensures r.(procs := c.procs) == c
  {
    if cam in c.procs then c.(procs := c.procs[cam := c.procs[cam].(alive := false)]) else c
  }

  predicate IsStartOf(e: Event, cam: CamId)
  {
    e.cameraId == cam && e.kind == RecordingStartKind
  }

  /** Number of `recording_start` rows for one camera: the number of processes ever spawned for it. */
  function StartsLogged(events: seq<Event>, cam: CamId): nat
    decreases |events|
  {
    if |events| == 0 then 0
    else
      var last := if IsStartOf(events[|events| - 1], cam) then 1 else 0;
      StartsLogged(events[..|events| - 1], cam) + last
  }

  lemma StartsLoggedAppend(events: seq<Event>, e: Event, cam: CamId)
    ensures StartsLogged(events + [e], cam) == StartsLogged(events, cam) + (if IsStartOf(e, cam) then 1 else 0)
  {
    assert (events + [e])[..|events|] == events;
  }

  /**
    Two `ensureRecording` calls while the first one's process runs spawn
    exactly one process: the second call is a no-op and at most one
    `recording_start` row is added in all.
   */
  lemma StartTwiceSpawnsOnce(c: Coordinator, cam: CamId, s1: Spawn, s2: Spawn, t1: Time, t2: Time)
    ensures var once := StartRecording(c, cam, s1, t1);
      var twice := StartRecording(once, cam, s2, t2);
      && (IsRecording(once.procs, cam) ==> twice == once)
      && StartsLogged(twice.events, cam) <= StartsLogged(c.events, cam) + 1
  {
    var once := StartRecording(c, cam, s1, t1);
    var twice := StartRecording(once, cam, s2, t2);
    if !IsRecording(c.procs, cam) && s1.Spawned? {
      StartsLoggedAppend(c.events, Event(cam, RecordingStartKind, "Recording started", t1), cam);
    } else if !IsRecording(once.procs, cam) && s2.Spawned? {
      StartsLoggedAppend(once.events, Event(cam, RecordingStartKind, "Recording started", t2), cam);
    }
  }

  /** Stopping an id without an entry changes nothing. */
  lemma StopUnknownIsNoop(c: Coordinator, cam: CamId, now: Time)
    requires cam !in c.procs
    ensures StopRecording(c, cam, now) == c
  {
    assert c.procs - {cam} == c.procs;
  }

  /** A start followed by a stop leaves the table as it was without the camera, and logs one start and one stop. */
  lemma StartThenStop(c: Coordinator, cam: CamId, pid: nat, t1: Time, t2: Time)
    requires !IsRecording(c.procs, cam)
    ensures var r := StopRecording(StartRecording(c, cam, Spawned(pid), t1), cam, t2);
      && r.procs == c.procs - {cam}
      && r.events == c.events + [Event(cam, RecordingStartKind, "Recording started", t1),
                                 Event(cam, RecordingStopKind, "Recording stopped", t2)]
  {
    var s := StartRecording(c, cam, Spawned(pid), t1);
    assert s.procs - {cam} == c.procs - {cam};
  }

  /** After the process dies, the next start replaces its handle by a running one. */
  lemma CrashThenRestart(c: Coordinator, cam: CamId, pid: nat, now: Time)
    ensures var r := StartRecording(ProcessExited(c, cam), cam, Spawned(pid), now);
      && IsRecording(r.procs, cam)
      && r.procs[cam] == Handle(pid, true)
      && r.events == c.events + [Event(cam, RecordingStartKind, "Recording started", now)]
  {
  }
}

=== FILE: registration.dfy ===
/**
  The edge node's start-up registration (`register_with_server`): one
  payload, posted to the coordinator's `/api/register` up to five times.
 */
module Registration {
  import opened Common
  import opened ServerState
  import EdgeApi
  import Recording
  import Registry

  const MaxAttempts: nat := 5

  /** Seconds slept after every attempt that did not get 200, the last one included. */
  const RetryDelay: nat := 5

  const CameraModel := "Hikvision DS-2CD2743G2-IZS"

  /** The address sent when the node cannot find its own. */
  const UnknownIp := "unknown"

  /** The outcome of one `requests.post`: a status code, or an exception. */
  datatype Reply = HttpStatus(code: int) | Raised

  predicate Succeeded(r: Reply)
  {
    r == HttpStatus(OkStatus)
  }

  /**
    The payload. `localIp` is the address the UDP-socket probe found, or
    `None` when it raised.
   */
  function Payload(cfg: EdgeApi.EdgeConfig, piPort: int, localIp: Option<string>): (p: Registry.RegisterRequest)
    ensures p.piUser == Some(cfg.piUser) && p.piPass == Some(cfg.piPass)
    ensures p.piIp == Some(if localIp.Some? then localIp.value else UnknownIp)
    ensures p.piPort == Some(piPort) && p.cameraModel == Some(CameraModel)
  {
    Registry.RegisterRequest(Some(cfg.piUser), Some(cfg.piPass), Some(localIp.GetOr(UnknownIp)), Some(piPort), Some(CameraModel))
  }

  /**
    The retry loop; `reply(i)` is the outcome of attempt `i`. It stops at
    the first 200, makes at most five attempts, and reports whether one of
    them got 200. `waited` is the time slept.
   */
  method RegisterWithServer(reply: nat -> Reply) returns (registered: bool, attempts: nat, waited: nat)
    ensures 1 <= attempts <= MaxAttempts
    ensures registered <==> exists i :: 0 <= i < MaxAttempts && Succeeded(reply(i))
    ensures registered ==> Succeeded(reply(attempts - 1))
    ensures forall i :: 0 <= i < attempts - 1 ==> !Succeeded(reply(i))
    ensures !registered ==> attempts == MaxAttempts
    ensures waited == RetryDelay * (if registered then attempts - 1 else attempts)
  {
    registered := false;
    attempts := 0;
    waited := 0;
    while attempts < MaxAttempts && !registered
      invariant 0 <= attempts <= MaxAttempts
      invariant registered ==> attempts >= 1 && Succeeded(reply(attempts - 1))
      invariant forall i :: 0 <= i < (if registered then attempts - 1 else attempts) ==> !Succeeded(reply(i))
      invariant waited == RetryDelay * (if registered then attempts - 1 else attempts)
      decreases MaxAttempts - attempts, if registered then 0 else 1
    {
      var r := reply(attempts);
      attempts := attempts + 1;
      if Succeeded(r) {
        registered := true;
      } else {
        waited := waited + RetryDelay;
      }
    }
  }

  /**
    The coordinator accepts the payload exactly when the node was started
    with a non-empty user and password; it then replies with the row id.
   */
  lemma PayloadAccepted(c: Coordinator, cfg: EdgeApi.EdgeConfig, piPort: int, localIp: Option<string>, spawn: Recording.Spawn, now: Time)
    requires Wf(c)
    ensures var r := Registry.Register(c, Payload(cfg, piPort, localIp), spawn, now);
      && (r.response.Ok? <==> cfg.piUser != "" && cfg.piPass != "")
      && (r.response.Ok? ==> r.response.cameraId.Some? && r.state.cameras[r.response.cameraId.value].piUser == cfg.piUser)
      && (r.response.Error? ==> r.response.status == 400 && r.state == c)
  {
  }
}

=== FILE: registry.dfy ===
/**
  The fleet registry: the register upsert an edge node calls on start-up,
  and the administrative add, update and delete of camera rows.

  Request bodies are JSON objects; a field is `None` when the key is
  absent, and `dict.get`'s default is applied in the model exactly where
  the source applies it. "Truthy" is Python's truth test on a string
  field: present and non-empty (`Common.Truthy`).
 */
module Registry {
  import opened Common
  import opened ServerState
  import Recording

  datatype RegisterRequest = RegisterRequest(
    piUser: Option<string>,
    piPass: Option<string>,
    piIp: Option<string>,
    piPort: Option<int>,
    cameraModel: Option<string>)

  datatype AddRequest = AddRequest(
    name: Option<string>,
    piUser: Option<string>,
    piPass: Option<string>,
    piIp: Option<string>,
    piPort: Option<int>)

  datatype UpdateRequest = UpdateRequest(
    name: Option<string>,
    piIp: Option<string>,
    piPort: Option<int>,
    piPass: Option<string>)

  const MissingCredentials := "pi_user and pi_pass required"
  const DuplicateUser := "pi_user already exists"
  const CameraNotFound := "Camera not found"
  const DefaultCameraName := "New Camera"

  /** The `registered` message: Python formats an absent address as `None`. */
  function RegisteredMessage(piIp: Option<string>): string
  {
    "Pi registered from " + piIp.GetOr("None")
  }

  /**
    The upsert of `api_register`, keyed on `pi_user`: an existing row keeps
    its id, name and password hash and takes the new address, port and
    model; otherwise a row with a fresh id is inserted under the name
    `pi_user`. Either way the row is online and last seen `now`.
   */
  function Upsert(c: Coordinator, user: string, pass: string, req: RegisterRequest, now: Time): (r: (Coordinator, CamId))
    requires Wf(c)
    ensures Wf(r.0)
    ensures r.1 in r.0.cameras && r.0.cameras[r.1].piUser == user
    ensures r.0.cameras[r.1].online && r.0.cameras[r.1].lastSeen == Some(now)
    ensures r.0.cameras.Keys == c.cameras.Keys + {r.1}
    ensures forall id :: id in c.cameras && id != r.1 ==> r.0.cameras[id] == c.cameras[id]
    ensures r.0.(cameras := c.cameras, lastId := c.lastId) == c
    ensures (exists id :: id in c.cameras && c.cameras[id].piUser == user) ==>
      && r.1 in c.cameras && r.0.lastId == c.lastId
      && r.0.cameras[r.1] == c.cameras[r.1].(piIp := req.piIp, piPort := req.piPort.GetOr(DefaultPiPort),
           model := Some(req.cameraModel.GetOr("")), online := true, lastSeen := Some(now))
    ensures !(exists id :: id in c.cameras && c.cameras[id].piUser == user) ==>
      && r.1 == c.lastId + 1 && r.1 !in c.cameras && r.0.lastId == r.1
      && r.0.cameras[r.1] == Camera(user, user, Sha256Of(pass), req.piIp, req.piPort.GetOr(DefaultPiPort),
           Some(req.cameraModel.GetOr("")), true, Some(now))
  {
    var port := req.piPort.GetOr(DefaultPiPort);
    var model := Some(req.cameraModel.GetOr(""));
    match CameraByUser(c.cameras, user)
    case Some(id) =>
      var row := c.cameras[id].(piIp := req.piIp, piPort := port, model := model, online := true, lastSeen := Some(now));
      (c.(cameras := c.cameras[id := row]), id)
    case None =>
      var id := c.lastId + 1;
      var row := Camera(user, user, Sha256Of(pass), req.piIp, port, model, true, Some(now));
      (c.(cameras := c.cameras[id := row], lastId := id), id)
  }

  /**
    `api_register`: a missing or empty `pi_user` or `pi_pass` is a 400 with
    no change. Otherwise the row is upserted, the plaintext password is
    cached under `pi_user`, a `registered` event is logged and a recording
    is started (a no-op when one is already running); the reply carries the
    row id.
   */
  function Register(c: Coordinator, req: RegisterRequest, spawn: Recording.Spawn, now: Time): (r: Outcome)
    requires Wf(c)
    ensures Wf(r.state)
    ensures r.response.Error? <==> !Truthy(req.piUser) || !Truthy(req.piPass)
    ensures r.response.Error? ==> r.response == Error(400, MissingCredentials) && r.state == c
    ensures r.response.Ok? ==>
      && r.response.cameraId.Some?
      && var id := r.response.cameraId.value;
      && id in r.state.cameras
      && r.state.cameras[id].piUser == req.piUser.value
      && r.state.cameras[id].online
      && r.state.passwords == c.passwords[req.piUser.value := req.piPass.value]
      && r.state.lastId == if exists k :: k in c.cameras && c.cameras[k].piUser == req.piUser.value then c.lastId else c.lastId + 1
    ensures KeepsRuntime(c, r.state)
  {
    if !Truthy(req.piUser) || !Truthy(req.piPass) then
      Outcome(c, Error(400, MissingCredentials))
    else
      var user := req.piUser.value;
      var pass := req.piPass.value;
      var (upserted, id) := Upsert(c, user, pass, req, now);
      var cached := upserted.(passwords := upserted.passwords[user := pass]);
      var logged := LogEvent(cached, id, RegisteredKind, RegisteredMessage(req.piIp), now);
      Outcome(Recording.StartRecording(logged, id, spawn, now), Ok(Some(id)))
  }

  /**
    `api_add_camera`: 400 on missing credentials, 409 with no new row when
    `pi_user` is taken; otherwise a new offline row with a fresh id, no
    model and no last-seen time, and the plaintext cached. No recording is
    started and no event is logged.
   */
  function AddCamera(c: Coordinator, req: AddRequest): (r: Outcome)
    requires Wf(c)
    ensures Wf(r.state)
    ensures !Truthy(req.piUser) || !Truthy(req.piPass) ==> r == Outcome(c, Error(400, MissingCredentials))
    ensures Truthy(req.piUser) && Truthy(req.piPass) ==>
      ((exists id :: id in c.cameras && c.cameras[id].piUser == req.piUser.value)
        <==> r == Outcome(c, Error(409, DuplicateUser)))
    ensures r.response.Ok? <==>
      Truthy(req.piUser) && Truthy(req.piPass) && !(exists id :: id in c.cameras && c.cameras[id].piUser == req.piUser.value)
    ensures r.response.Ok? ==>
      && r.response.cameraId == Some(c.lastId + 1)
      && c.lastId + 1 !in c.cameras
      && r.state.lastId == c.lastId + 1
      && r.state.cameras == c.cameras[c.lastId + 1 := Camera(
           req.name.GetOr(DefaultCameraName), req.piUser.value, Sha256Of(req.piPass.value),
           Some(req.piIp.GetOr("")), req.piPort.GetOr(DefaultPiPort), None, false, None)]
      && r.state.passwords == c.passwords[req.piUser.value := req.piPass.value]
    ensures r.state.procs == c.procs && r.state.events == c.events
    ensures KeepsRuntime(c, r.state)
  {
    if !Truthy(req.piUser) || !Truthy(req.piPass) then
      Outcome(c, Error(400, MissingCredentials))
    else if CameraByUser(c.cameras, req.piUser.value).Some? then
      Outcome(c, Error(409, DuplicateUser))
    else
      var id := c.lastId + 1;
      var row := Camera(req.name.GetOr(DefaultCameraName), req.piUser.value, Sha256Of(req.piPass.value),
                        Some(req.piIp.GetOr("")), req.piPort.GetOr(DefaultPiPort), None, false, None);
      Outcome(c.(cameras := c.cameras[id := row], lastId := id,
                 passwords := c.passwords[req.piUser.value := req.piPass.value]), Ok(Some(id)))
  }

  /** The row after an update: each present field replaces the old value, absent ones keep it. */
  function Updated(cam: Camera, req: UpdateRequest): Camera
  {
    cam.(name := req.name.GetOr(cam.name),
         piIp := if req.piIp.Some? then req.piIp else cam.piIp,
         piPort := req.piPort.GetOr(cam.piPort),
         passHash := if req.piPass.Some? then Sha256Of(req.piPass.value) else cam.passHash)
  }

  /**
    `api_update_camera`: 404 with no change for an unknown id. Otherwise
    name, address and port take the request's value when present, a present
    `pi_pass` (even an empty one) replaces the hash and the cached
    plaintext; `pi_user`, online flag and last-seen time never change.
   */
  function UpdateCamera(c: Coordinator, id: CamId, req: UpdateRequest): (r: Outcome)
    requires Wf(c)
    ensures Wf(r.state)
    ensures id !in c.cameras <==> r.response == Error(404, CameraNotFound)
    ensures id !in c.cameras ==> r.state == c
    ensures id in c.cameras ==>
      && r.response == Ok(None)
      && r.state.cameras.Keys == c.cameras.Keys
      && var before := c.cameras[id];
      && var after := r.state.cameras[id];
      && after.piUser == before.piUser && after.online == before.online && after.lastSeen == before.lastSeen
      && after.model == before.model
      && (req.name.None? ==> after.name == before.name)
      && (req.name.Some? ==> after.name == req.name.value)
      && (req.piIp.None? ==> after.piIp == before.piIp)
      && (req.piIp.Some? ==> after.piIp == req.piIp)
      && (req.piPort.None? ==> after.piPort == before.piPort)
      && (req.piPort.Some? ==> after.piPort == req.piPort.value)
      && (req.piPass.None? ==> after.passHash == before.passHash && r.state.passwords == c.passwords)
      && (req.piPass.Some? ==>
            after.passHash == Sha256Of(req.piPass.value) && r.state.passwords == c.passwords[before.piUser := req.piPass.value])
    ensures forall other :: other in c.cameras && other != id ==> r.state.cameras[other] == c.cameras[other]
    ensures r.state.procs == c.procs && r.state.events == c.events && r.state.lastId == c.lastId
    ensures KeepsRuntime(c, r.state)
  {
    if id !in c.cameras then
      Outcome(c, Error(404, CameraNotFound))
    else
      var cam := c.cameras[id];
      var passwords := if req.piPass.Some? then c.passwords[cam.piUser := req.piPass.value] else c.passwords;
      Outcome(c.(cameras := c.cameras[id := Updated(cam, req)], passwords := passwords), Ok(None))
  }

  /**
    `api_delete_camera`: stops the recording (logging `recording_stop` if
    it ran), then deletes the camera's events, that stop event included,
    and its row. The reply is 200 even for an unknown id. The cached
    plaintext is left behind.
   */
  function DeleteCamera(c: Coordinator, id: CamId, now: Time): (r: Outcome)
    requires Wf(c)
    ensures Wf(r.state)
    ensures r.response == Ok(None)
    ensures r.state.cameras == c.cameras - {id}
    ensures r.state.procs == c.procs - {id}
    ensures r.state.events == EventsExcept(c.events, id)
    ensures r.state.passwords == c.passwords && r.state.lastId == c.lastId
    ensures KeepsRuntime(c, r.state)
  {
    var stopped := Recording.StopRecording(c, id, now);
    assert stopped.procs == c.procs - {id} && stopped.cameras == c.cameras;
    EventsExceptDropsAppended(c.events, Event(id, RecordingStopKind, "Recording stopped", now), id);
    assert EventsExcept(stopped.events, id) == EventsExcept(c.events, id);
    var gone := stopped.(events := EventsExcept(c.events, id), cameras := c.cameras - {id});
    assert UniqueUsers(gone.cameras) && IdsIssued(gone);
    Outcome(gone, Ok(None))
  }

  lemma EventsExceptDropsAppended(s: seq<Event>, e: Event, cam: CamId)
    requires e.cameraId == cam
    ensures EventsExcept(s + [e], cam) == EventsExcept(s, cam)
    decreases |s|
  {
    if |s| > 0 {
      assert (s + [e])[1..] == s[1..] + [e];
      EventsExceptDropsAppended(s[1..], e, cam);
    }
  }

  // ---------------------------------------------------------------------------
  // Properties
  // ---------------------------------------------------------------------------

  /**
    Registering a known `pi_user` keeps the row's id, name and password
    hash (even when the password differs), takes the new address, port and
    model, and marks it online at `now`; no row is added.
   */
  lemma RegisterExistingKeepsIdentity(c: Coordinator, req: RegisterRequest, spawn: Recording.Spawn, now: Time, id: CamId)
    requires Wf(c) && Truthy(req.piUser) && Truthy(req.piPass)
    requires id in c.cameras && c.cameras[id].piUser == req.piUser.value
    ensures var r := Register(c, req, spawn, now);
      && r.response == Ok(Some(id))
      && r.state.lastId == c.lastId
      && r.state.cameras == c.cameras[id := c.cameras[id].(piIp := req.piIp, piPort := req.piPort.GetOr(DefaultPiPort),
           model := Some(req.cameraModel.GetOr("")), online := true, lastSeen := Some(now))]
  {
  }

  /**
    Registering an unknown `pi_user` inserts exactly one row, under a fresh
    id never used before, named after `pi_user`, hashing the password.
   */
  lemma RegisterNewGetsFreshId(c: Coordinator, req: RegisterRequest, spawn: Recording.Spawn, now: Time)
    requires Wf(c) && Truthy(req.piUser) && Truthy(req.piPass)
    requires forall id :: id in c.cameras ==> c.cameras[id].piUser != req.piUser.value
    ensures var r := Register(c, req, spawn, now);
      var id := c.lastId + 1;
      && r.response == Ok(Some(id))
      && id !in c.cameras
      && r.state.cameras == c.cameras[id := Camera(req.piUser.value, req.piUser.value, Sha256Of(req.piPass.value),
           req.piIp, req.piPort.GetOr(DefaultPiPort), Some(req.cameraModel.GetOr("")), true, Some(now))]
  {
  }

  /**
    The register reply's events: `registered` for the row, then
    `recording_start` exactly when a process was spawned; afterwards the
    camera records whenever it recorded before or the spawn succeeded.
   */
  lemma RegisterLogsAndRecords(c: Coordinator, req: RegisterRequest, spawn: Recording.Spawn, now: Time)
    requires Wf(c) && Truthy(req.piUser) && Truthy(req.piPass)
    ensures var r := Register(c, req, spawn, now);
      var id := r.response.cameraId.value;
      && r.state.events[..|c.events| + 1] == c.events + [Event(id, RegisteredKind, RegisteredMessage(req.piIp), now)]
      && (IsRecording(r.state.procs, id) <==> IsRecording(c.procs, id) || spawn.Spawned?)
      && (|r.state.events| == |c.events| + 2 <==> !IsRecording(c.procs, id) && spawn.Spawned?)
      && |r.state.events| <= |c.events| + 2
      && (|r.state.events| == |c.events| + 2 ==>
            r.state.events[|c.events| + 1] == Event(id, RecordingStartKind, "Recording started", now))
  {
  }

  /** Re-registration is an upsert: a second identical request gets the same id and adds no row. */
  lemma RegisterTwiceSameId(c: Coordinator, req: RegisterRequest, s1: Recording.Spawn, s2: Recording.Spawn, t1: Time, t2: Time)
    requires Wf(c) && Truthy(req.piUser) && Truthy(req.piPass)
    ensures var once := Register(c, req, s1, t1);
      var twice := Register(once.state, req, s2, t2);
      && twice.response == once.response
      && twice.state.cameras.Keys == once.state.cameras.Keys
      && twice.state.lastId == once.state.lastId
  {
    var once := Register(c, req, s1, t1);
    var id := once.response.cameraId.value;
    RegisterExistingKeepsIdentity(once.state, req, s2, t2, id);
  }

  /** A manual add of a `pi_user` that is already registered is refused with 409 and adds no row. */
  lemma AddAfterRegisterConflicts(c: Coordinator, reg: RegisterRequest, add: AddRequest, spawn: Recording.Spawn, now: Time)
    requires Wf(c) && Truthy(reg.piUser) && Truthy(reg.piPass) && Truthy(add.piPass)
    requires add.piUser == reg.piUser
    ensures var r := Register(c, reg, spawn, now).state;
      AddCamera(r, add) == Outcome(r, Error(409, DuplicateUser))
  {
    var r := Register(c, reg, spawn, now);
    var id := r.response.cameraId.value;
    assert id in r.state.cameras && r.state.cameras[id].piUser == add.piUser.value;
  }

  /** An update with no fields present changes no row and no cached password. */
  lemma EmptyUpdateIsNoop(c: Coordinator, id: CamId)
    requires Wf(c) && id in c.cameras
    ensures UpdateCamera(c, id, UpdateRequest(None, None, None, None)) == Outcome(c, Ok(None))
  {
    assert Updated(c.cameras[id], UpdateRequest(None, None, None, None)) == c.cameras[id];
    assert c.cameras[id := c.cameras[id]] == c.cameras;
  }

  /** Applying the same update twice is the same as applying it once. */
  lemma UpdateIdempotent(c: Coordinator, id: CamId, req: UpdateRequest)
    requires Wf(c)
    ensures var once := UpdateCamera(c, id, req);
      UpdateCamera(once.state, id, req) == once
  {
  }

  /** After a delete nothing of the camera is left in the tables: no row, no process entry, no event. */
  lemma DeleteLeavesNoTrace(c: Coordinator, id: CamId, now: Time)
    requires Wf(c)
    ensures var r := DeleteCamera(c, id, now).state;
      && id !in r.cameras && id !in r.procs
      && forall e :: e in r.events ==> e.cameraId != id
  {
    var r := DeleteCamera(c, id, now).state;
    forall e | e in r.events
      ensures e.cameraId != id
    {
      assert multiset(r.events)[e] > 0;
    }
  }

  /** Delete removes only that camera's events: every other row stays, as often as it was there. */
  lemma DeleteKeepsOtherEvents(c: Coordinator, id: CamId, now: Time, e: Event)
    requires Wf(c) && e.cameraId != id
    ensures multiset(DeleteCamera(c, id, now).state.events)[e] == multiset(c.events)[e]
  {
  }

  /** Ids are never reused: a `pi_user` registered again after its row was deleted gets a new id. */
  lemma ReRegisterAfterDeleteGetsNewId(c: Coordinator, req: RegisterRequest, s1: Recording.Spawn, s2: Recording.Spawn, t1: Time, t2: Time, t3: Time)
    requires Wf(c) && Truthy(req.piUser) && Truthy(req.piPass)
    ensures var first := Register(c, req, s1, t1);
      var id := first.response.cameraId.value;
      var deleted := DeleteCamera(first.state, id, t2);
      var second := Register(deleted.state, req, s2, t3);
      second.response.cameraId.value != id
  {
    var first := Register(c, req, s1, t1);
    var id := first.response.cameraId.value;
    var deleted := DeleteCamera(first.state, id, t2);
    assert forall k :: k in deleted.state.cameras ==> deleted.state.cameras[k].piUser != req.piUser.value by {
      forall k | k in deleted.state.cameras
        ensures deleted.state.cameras[k].piUser != req.piUser.value
      {
        assert k in first.state.cameras && k != id;
      }
    }
    RegisterNewGetsFreshId(deleted.state, req, s2, t3);
  }
}

=== FILE: retention.dfy ===
/**
  The retention sweep of the coordinator (`cleanup_old_recordings`). The
  recordings root holds one entry per camera directory (and possibly plain
  files); the sweep walks every directory and deletes each `seg_*.mp4`
  file whose modification time lies strictly before `now - maxAgeHours*3600`.

  The source has no error handling inside the sweep: a `stat` or `unlink`
  that raises leaves the sweep at that file. A file's `fault` flag is that
  I/O outcome; the sweep then reports `completed == false`.
 */
module Retention {
  import opened Common

  const SecondsPerHour: int := 3600

  /** A directory entry inside a camera directory. `fault`: `stat` or `unlink` on it raises. */
  datatype File = File(name: string, mtime: Time, fault: bool)

  /** An entry of the recordings root: a directory with its files, or a plain file (`isDir == false`). */
  datatype Entry = Entry(name: string, isDir: bool, files: seq<File>)

  type Store = seq<Entry>

  /** What one directory looks like after the sweep has been through it. */
  datatype DirSweep = DirSweep(files: seq<File>, deleted: nat, completed: bool)

  /** The recordings root after a sweep, the number of files it deleted, and whether it ran to the end. */
  datatype Sweep = Sweep(store: Store, deleted: nat, completed: bool)

  /** The glob `seg_*.mp4`: the star may match the empty string, but the prefix and suffix may not overlap. */
  predicate IsSegmentName(name: string)
  {
    |name| >= 8 && name[..4] == "seg_" && name[|name| - 4..] == ".mp4"
  }

  function Cutoff(now: Time, maxAgeHours: int): int
  {
    now - maxAgeHours * SecondsPerHour
  }

  /** The age predicate: strictly older than the cutoff. */
  predicate Expired(f: File, cutoff: int)
  {
    IsSegmentName(f.name) && f.mtime < cutoff
  }

  /** No file the sweep would `stat` raises. */
  predicate FilesFaultless(fs: seq<File>)
  {
    forall k :: 0 <= k < |fs| ==> IsSegmentName(fs[k].name) ==> !fs[k].fault
  }

  predicate Faultless(st: Store)
  {
    forall i :: 0 <= i < |st| ==> st[i].isDir ==> FilesFaultless(st[i].files)
  }

  // ---------------------------------------------------------------------------
  // Reference definition: the sweep as a recursive walk in glob order.
  // ---------------------------------------------------------------------------

  function SweepFiles(fs: seq<File>, cutoff: int): (r: DirSweep)
    ensures |r.files| + r.deleted == |fs|
    decreases |fs|
  {
    if |fs| == 0 then DirSweep([], 0, true)
    else
      var f := fs[0];
      if IsSegmentName(f.name) && f.fault then DirSweep(fs, 0, false)
      else
        var rest := SweepFiles(fs[1..], cutoff);
        if Expired(f, cutoff) then rest.(deleted := rest.deleted + 1)
        else rest.(files := [f] + rest.files)
  }

  function SweepStore(st: Store, cutoff: int): (r: Sweep)
    ensures |r.store| == |st|
    decreases |st|
  {
    if |st| == 0 then Sweep([], 0, true)
    else
      var e := st[0];
      if !e.isDir then
        var rest := SweepStore(st[1..], cutoff);
        rest.(store := [e] + rest.store)
      else
        var d := SweepFiles(e.files, cutoff);
        if !d.completed then Sweep([e.(files := d.files)] + st[1..], d.deleted, false)
        else
          var rest := SweepStore(st[1..], cutoff);
          Sweep([e.(files := d.files)] + rest.store, d.deleted + rest.deleted, rest.completed)
  }

  /** A directory sweep runs to its end exactly when no `stat`/`unlink` on a segment raises. */
  lemma {:induction false} SweepFilesCompletes(fs: seq<File>, cutoff: int)
    ensures SweepFiles(fs, cutoff).completed <==> FilesFaultless(fs)
    decreases |fs|
  {
    if |fs| > 0 && !(IsSegmentName(fs[0].name) && fs[0].fault) {
      SweepFilesCompletes(fs[1..], cutoff);
      assert FilesFaultless(fs) <==> FilesFaultless(fs[1..]) by {
        assert forall k :: 1 <= k < |fs| ==> fs[k] == fs[1..][k - 1];
      }
    }
  }

  /** The whole sweep runs to its end exactly when no directory holds a segment whose `stat`/`unlink` raises. */
  lemma {:induction false} SweepCompletes(st: Store, cutoff: int)
    ensures SweepStore(st, cutoff).completed <==> Faultless(st)
    decreases |st|
  {
    if |st| > 0 {
      var e := st[0];
      assert Faultless(st) <==> (e.isDir ==> FilesFaultless(e.files)) && Faultless(st[1..]) by {
        assert forall k :: 1 <= k < |st| ==> st[k] == st[1..][k - 1];
      }
      SweepCompletes(st[1..], cutoff);
      if e.isDir {
        SweepFilesCompletes(e.files, cutoff);
      }
    }
  }

  /** The sweep removes files only: every entry of the root keeps its place, name and kind. */
  lemma {:induction false} SweepKeepsEntries(st: Store, cutoff: int)
    ensures var r := SweepStore(st, cutoff);
      forall i :: 0 <= i < |st| ==> r.store[i].name == st[i].name && r.store[i].isDir == st[i].isDir
    decreases |st|
  {
    if |st| > 0 {
      SweepKeepsEntries(st[1..], cutoff);
      var r := SweepStore(st, cutoff);
      var d := SweepFiles(st[0].files, cutoff);
      if st[0].isDir && !d.completed {
        assert r.store[1..] == st[1..];
      } else {
        assert r.store[1..] == SweepStore(st[1..], cutoff).store;
      }
      assert forall i :: 1 <= i < |st| ==> r.store[i] == r.store[1..][i - 1] && st[i] == st[1..][i - 1];
    }
  }

  lemma {:induction false} SweepFilesOnlyDeletesExpired(fs: seq<File>, cutoff: int)
    ensures var r := SweepFiles(fs, cutoff);
      && (forall f :: f in r.files ==> f in fs)
      && (forall f :: f in fs && !Expired(f, cutoff) ==> f in r.files)
    decreases |fs|
  {
    if |fs| > 0 && !(IsSegmentName(fs[0].name) && fs[0].fault) {
      SweepFilesOnlyDeletesExpired(fs[1..], cutoff);
      assert forall f :: f in fs ==> f == fs[0] || f in fs[1..];
    }
  }

  /**
    Whether or not it runs to the end, the sweep deletes nothing but expired
    segments: each directory afterwards holds only its own files, and still
    holds every file that is not an expired segment.
   */
  lemma {:induction false} SweepOnlyDeletesExpired(st: Store, cutoff: int)
    ensures var r := SweepStore(st, cutoff);
      forall i :: 0 <= i < |st| ==>
        && (forall f :: f in r.store[i].files ==> f in st[i].files)
        && (forall f :: f in st[i].files && (!st[i].isDir || !Expired(f, cutoff)) ==> f in r.store[i].files)
    decreases |st|
  {
    if |st| > 0 {
      SweepOnlyDeletesExpired(st[1..], cutoff);
      SweepFilesOnlyDeletesExpired(st[0].files, cutoff);
      var r := SweepStore(st, cutoff);
      var d := SweepFiles(st[0].files, cutoff);
      if st[0].isDir && !d.completed {
        assert r.store[1..] == st[1..];
      } else {
        assert r.store[1..] == SweepStore(st[1..], cutoff).store;
      }
      assert forall i :: 1 <= i < |st| ==> r.store[i] == r.store[1..][i - 1] && st[i] == st[1..][i - 1];
    }
  }

  // ---------------------------------------------------------------------------
  // The sweep as the source writes it: two nested loops and a counter.
  // ---------------------------------------------------------------------------

  /** One step of the reference walk, seen from position `j`. */
  lemma SweepFilesAt(fs: seq<File>, j: nat, cutoff: int)
    requires j < |fs|
    ensures var f := fs[j];
      var rest := SweepFiles(fs[j + 1..], cutoff);
      SweepFiles(fs[j..], cutoff) ==
        if IsSegmentName(f.name) && f.fault then DirSweep(fs[j..], 0, false)
        else if Expired(f, cutoff) then rest.(deleted := rest.deleted + 1)
        else rest.(files := [f] + rest.files)
  {
    assert fs[j..][0] == fs[j] && fs[j..][1..] == fs[j + 1..];
  }

  /** The inner loop's invariant: what is kept and counted, followed by the reference walk of what is left, is the whole walk. */
  ghost predicate DirLoop(files: seq<File>, cutoff: int, j: nat, kept: seq<File>, count: nat)
    requires j <= |files|
  {
    var tail := SweepFiles(files[j..], cutoff);
    SweepFiles(files, cutoff) == DirSweep(kept + tail.files, count + tail.deleted, tail.completed)
  }

  lemma DirLoopKeep(files: seq<File>, cutoff: int, j: nat, kept: seq<File>, count: nat)
    requires j < |files| && DirLoop(files, cutoff, j, kept, count)
    requires !(IsSegmentName(files[j].name) && files[j].fault) && !Expired(files[j], cutoff)
    ensures DirLoop(files, cutoff, j + 1, kept + [files[j]], count)
  {
    SweepFilesAt(files, j, cutoff);
    AppendAssoc(kept, [files[j]], SweepFiles(files[j + 1..], cutoff).files);
  }

  lemma DirLoopCount(files: seq<File>, cutoff: int, j: nat, kept: seq<File>, count: nat)
    requires j < |files| && DirLoop(files, cutoff, j, kept, count)
    requires !(IsSegmentName(files[j].name) && files[j].fault) && Expired(files[j], cutoff)
    ensures DirLoop(files, cutoff, j + 1, kept, count + 1)
  {
    SweepFilesAt(files, j, cutoff);
  }

  lemma DirLoopAbort(files: seq<File>, cutoff: int, j: nat, kept: seq<File>, count: nat)
    requires j < |files| && DirLoop(files, cutoff, j, kept, count)
    requires IsSegmentName(files[j].name) && files[j].fault
    ensures SweepFiles(files, cutoff) == DirSweep(kept + files[j..], count, false)
  {
    SweepFilesAt(files, j, cutoff);
  }

  /** The inner loop: one camera directory, in glob order. */
  method SweepDirectory(files: seq<File>, cutoff: int) returns (d: DirSweep)
    ensures d == SweepFiles(files, cutoff)
  {
    var kept: seq<File> := [];
    var count: nat := 0;
    var j := 0;
    assert files[0..] == files;
    while j < |files|
      invariant 0 <= j <= |files|
      invariant DirLoop(files, cutoff, j, kept, count)
    {
      var f := files[j];
      var matches := IsSegmentName(f.name);
      if matches && f.fault {
        // the exception from stat or unlink leaves the sweep here
        DirLoopAbort(files, cutoff, j, kept, count);
        return DirSweep(kept + files[j..], count, false);
      }
      if matches && f.mtime < cutoff {
        DirLoopCount(files, cutoff, j, kept, count);
        count := count + 1;
      } else {
        DirLoopKeep(files, cutoff, j, kept, count);
        kept := kept + [f];
      }
      j := j + 1;
    }
    assert files[j..] == [];
    d := DirSweep(kept, count, true);
  }

  lemma SweepStoreAt(st: Store, i: nat, cutoff: int)
    requires i < |st|
    ensures var e := st[i];
      var d := SweepFiles(e.files, cutoff);
      var rest := SweepStore(st[i + 1..], cutoff);
      SweepStore(st[i..], cutoff) ==
        if !e.isDir then rest.(store := [e] + rest.store)
        else if !d.completed then Sweep([e.(files := d.files)] + st[i + 1..], d.deleted, false)
        else Sweep([e.(files := d.files)] + rest.store, d.deleted + rest.deleted, rest.completed)
  {
    assert st[i..][0] == st[i] && st[i..][1..] == st[i + 1..];
  }

  /** The outer loop's invariant: what is done, followed by the reference sweep of what is left, is the whole sweep. */
  ghost predicate StoreLoop(store: Store, cutoff: int, i: nat, done: Store, count: nat)
    requires i <= |store|
  {
    var rest := SweepStore(store[i..], cutoff);
    SweepStore(store, cutoff) == Sweep(done + rest.store, count + rest.deleted, rest.completed)
  }

  lemma StoreLoopSkip(store: Store, cutoff: int, i: nat, done: Store, count: nat)
    requires i < |store| && !store[i].isDir && StoreLoop(store, cutoff, i, done, count)
    ensures StoreLoop(store, cutoff, i + 1, done + [store[i]], count)
  {
    SweepStoreAt(store, i, cutoff);
    AppendAssoc(done, [store[i]], SweepStore(store[i + 1..], cutoff).store);
  }

  lemma StoreLoopDir(store: Store, cutoff: int, i: nat, done: Store, count: nat)
    requires i < |store| && store[i].isDir && StoreLoop(store, cutoff, i, done, count)
    requires SweepFiles(store[i].files, cutoff).completed
    ensures var d := SweepFiles(store[i].files, cutoff);
      StoreLoop(store, cutoff, i + 1, done + [store[i].(files := d.files)], count + d.deleted)
  {
    SweepStoreAt(store, i, cutoff);
    var d := SweepFiles(store[i].files, cutoff);
    AppendAssoc(done, [store[i].(files := d.files)], SweepStore(store[i + 1..], cutoff).store);
  }

  lemma StoreLoopAbort(store: Store, cutoff: int, i: nat, done: Store, count: nat)
    requires i < |store| && store[i].isDir && StoreLoop(store, cutoff, i, done, count)
    requires !SweepFiles(store[i].files, cutoff).completed
    ensures var d := SweepFiles(store[i].files, cutoff);
      SweepStore(store, cutoff) == Sweep(done + [store[i].(files := d.files)] + store[i + 1..], count + d.deleted, false)
  {
    SweepStoreAt(store, i, cutoff);
    var d := SweepFiles(store[i].files, cutoff);
    AppendAssoc(done, [store[i].(files := d.files)], store[i + 1..]);
  }

  /** The outer loop over the recordings root; entries that are not directories are skipped. */
  method CleanupOldRecordings(store: Store, now: Time, maxAgeHours: int) returns (r: Sweep)
    ensures r == SweepStore(store, Cutoff(now, maxAgeHours))
  {
    var cutoff := Cutoff(now, maxAgeHours);
    var done: Store := [];
    var count: nat := 0;
    var i := 0;
    assert store[0..] == store;
    while i < |store|
      invariant 0 <= i <= |store|
      invariant StoreLoop(store, cutoff, i, done, count)
    {
      var e := store[i];
      if e.isDir {
        var d := SweepDirectory(e.files, cutoff);
        if !d.completed {
          StoreLoopAbort(store, cutoff, i, done, count);
          return Sweep(done + [e.(files := d.files)] + store[i + 1..], count + d.deleted, false);
        }
        StoreLoopDir(store, cutoff, i, done, count);
        done := done + [e.(files := d.files)];
        count := count + d.deleted;
      } else {
        StoreLoopSkip(store, cutoff, i, done, count);
        done := done + [e];
      }
      i := i + 1;
    }
    assert store[i..] == [];
    r := Sweep(done, count, true);
  }

  // ---------------------------------------------------------------------------
  // Properties
  // ---------------------------------------------------------------------------

  /** The files a complete sweep keeps: every file that is not an expired segment, in order. */
  function KeepFresh(fs: seq<File>, cutoff: int): (r: seq<File>)
    ensures forall f :: f in r <==> f in fs && !Expired(f, cutoff)
    decreases |fs|
  {
    if |fs| == 0 then []
    else if Expired(fs[0], cutoff) then KeepFresh(fs[1..], cutoff)
    else [fs[0]] + KeepFresh(fs[1..], cutoff)
  }

  function CountExpired(fs: seq<File>, cutoff: int): (n: nat)
    ensures n <= |fs|
    ensures n == 0 <==> forall f :: f in fs ==> !Expired(f, cutoff)
    decreases |fs|
  {
    if |fs| == 0 then 0
    else (if Expired(fs[0], cutoff) then 1 else 0) + CountExpired(fs[1..], cutoff)
  }

  function TotalExpired(st: Store, cutoff: int): nat
    decreases |st|
  {
    if |st| == 0 then 0
    else (if st[0].isDir then CountExpired(st[0].files, cutoff) else 0) + TotalExpired(st[1..], cutoff)
  }

  function FileCount(st: Store): nat
    decreases |st|
  {
    if |st| == 0 then 0 else |st[0].files| + FileCount(st[1..])
  }

  lemma {:induction false} SweepFilesFaultless(fs: seq<File>, cutoff: int)
    requires FilesFaultless(fs)
    ensures SweepFiles(fs, cutoff) == DirSweep(KeepFresh(fs, cutoff), CountExpired(fs, cutoff), true)
    decreases |fs|
  {
    if |fs| > 0 {
      assert FilesFaultless(fs[1..]) by {
        assert forall k :: 0 <= k < |fs[1..]| ==> fs[1..][k] == fs[k + 1];
      }
      SweepFilesFaultless(fs[1..], cutoff);
    }
  }

  /**
    A sweep over a store in which no `stat`/`unlink` raises runs to the end,
    keeps in every directory exactly the files that are not expired
    segments, leaves plain files of the root alone, and reports the number
    of expired segments it deleted.
   */
  lemma {:induction false} SweepDeletesExactlyExpired(st: Store, cutoff: int)
    requires Faultless(st)
    ensures var r := SweepStore(st, cutoff);
      && r.completed
      && r.deleted == TotalExpired(st, cutoff)
      && forall i :: 0 <= i < |st| ==>
           r.store[i] == (if st[i].isDir then st[i].(files := KeepFresh(st[i].files, cutoff)) else st[i])
    decreases |st|
  {
    if |st| > 0 {
      assert Faultless(st[1..]) by {
        assert forall k :: 0 <= k < |st[1..]| ==> st[1..][k] == st[k + 1];
      }
      SweepDeletesExactlyExpired(st[1..], cutoff);
      if st[0].isDir {
        SweepFilesFaultless(st[0].files, cutoff);
      }
      var r := SweepStore(st, cutoff);
      var rest := SweepStore(st[1..], cutoff);
      assert forall i :: 1 <= i < |st| ==> r.store[i] == rest.store[i - 1] && st[i] == st[1..][i - 1];
    }
  }

  /** The reported count is the number of files that disappeared, complete or aborted. */
  lemma {:induction false} SweepCountMatchesRemoved(st: Store, cutoff: int)
    ensures FileCount(SweepStore(st, cutoff).store) + SweepStore(st, cutoff).deleted == FileCount(st)
    decreases |st|
  {
    if |st| > 0 {
      var r := SweepStore(st, cutoff);
      var e := st[0];
      if !e.isDir || SweepFiles(e.files, cutoff).completed {
        SweepCountMatchesRemoved(st[1..], cutoff);
        var rest := SweepStore(st[1..], cutoff);
        assert r.store[1..] == rest.store;
      } else {
        assert r.store[1..] == st[1..];
      }
    }
  }

  lemma {:induction false} KeepFreshHasNoExpired(fs: seq<File>, cutoff: int)
    ensures CountExpired(KeepFresh(fs, cutoff), cutoff) == 0
    ensures KeepFresh(KeepFresh(fs, cutoff), cutoff) == KeepFresh(fs, cutoff)
    decreases |fs|
  {
    if |fs| > 0 {
      KeepFreshHasNoExpired(fs[1..], cutoff);
    }
  }

  lemma {:induction false} KeepFreshFaultless(fs: seq<File>, cutoff: int)
    requires FilesFaultless(fs)
    ensures FilesFaultless(KeepFresh(fs, cutoff))
  {
    var k := KeepFresh(fs, cutoff);
    forall j | 0 <= j < |k| && IsSegmentName(k[j].name)
      ensures !k[j].fault
    {
      assert k[j] in k;
      var m :| 0 <= m < |fs| && fs[m] == k[j];
    }
  }

  /**
    Sweeping twice with the same clock deletes nothing the second time and
    leaves the store as the first sweep left it (when the first ran to the end).
   */
  lemma SweepIdempotent(st: Store, cutoff: int)
    requires Faultless(st)
    ensures var once := SweepStore(st, cutoff);
      SweepStore(once.store, cutoff) == Sweep(once.store, 0, true)
  {
    var once := SweepStore(st, cutoff);
    SweepDeletesExactlyExpired(st, cutoff);
    assert Faultless(once.store) by {
      forall i | 0 <= i < |st| && once.store[i].isDir
        ensures FilesFaultless(once.store[i].files)
      {
        KeepFreshFaultless(st[i].files, cutoff);
      }
    }
    SweepDeletesExactlyExpired(once.store, cutoff);
    var twice := SweepStore(once.store, cutoff);
    forall i | 0 <= i < |st|
      ensures twice.store[i] == once.store[i]
    {
      if st[i].isDir {
        KeepFreshHasNoExpired(st[i].files, cutoff);
      }
    }
    assert twice.store == once.store;
    TotalExpiredOfSwept(st, cutoff);
  }

  lemma {:induction false} TotalExpiredOfSwept(st: Store, cutoff: int)
    requires Faultless(st)
    ensures TotalExpired(SweepStore(st, cutoff).store, cutoff) == 0
    decreases |st|
  {
    if |st| > 0 {
      assert Faultless(st[1..]) by {
        assert forall k :: 0 <= k < |st[1..]| ==> st[1..][k] == st[k + 1];
      }
      TotalExpiredOfSwept(st[1..], cutoff);
      var r := SweepStore(st, cutoff);
      if st[0].isDir {
        SweepFilesFaultless(st[0].files, cutoff);
        KeepFreshHasNoExpired(st[0].files, cutoff);
      }
      assert r.store[1..] == SweepStore(st[1..], cutoff).store;
    }
  }

  /** The boundary: a segment exactly at the cutoff is kept; one a second older is deleted. */
  lemma CutoffIsStrict(name: string, now: Time, maxAgeHours: int)
    requires IsSegmentName(name)
    ensures !Expired(File(name, Cutoff(now, maxAgeHours), false), Cutoff(now, maxAgeHours))
    ensures Expired(File(name, Cutoff(now, maxAgeHours) - 1, false), Cutoff(now, maxAgeHours))
  {
  }

  /** Under the 48-hour window, a 49-hour-old segment goes and a 47-hour-old one stays. */
  lemma FortyEightHourScenario(now: Time)
    ensures var stale := File("seg_20240101_000000.mp4", now - 49 * 3600, false);
      var young := File("seg_20240101_020000.mp4", now - 47 * 3600, false);
      var st := [Entry("1", true, [stale, young])];
      SweepStore(st, Cutoff(now, 48)) == Sweep([Entry("1", true, [young])], 1, true)
  {
    var stale := File("seg_20240101_000000.mp4", now - 49 * 3600, false);
    var young := File("seg_20240101_020000.mp4", now - 47 * 3600, false);
    assert IsSegmentName(stale.name) && IsSegmentName(young.name);
    var fs := [stale, young];
    var cutoff := Cutoff(now, 48);
    assert fs[1..] == [young] && fs[1..][1..] == [];
    assert SweepFiles([young], cutoff) == DirSweep([young], 0, true);
    assert SweepFiles(fs, cutoff) == DirSweep([young], 1, true);
    var st := [Entry("1", true, fs)];
    assert st[1..] == [];
  }
}

=== FILE: server_state.dfy ===
/**
  The coordinator's state. The two sqlite tables become an id-keyed map of
  camera rows and a sequence of event rows in insertion (rowid) order; the
  table of recording processes, the in-memory plaintext password cache,
  the recordings directory and the health thread's liveness sit beside
  them in one immutable value.
 */
module ServerState {
  import opened Common
  import Retention

  /** A camera row id (`INTEGER PRIMARY KEY AUTOINCREMENT`). */
  type CamId = int

  const DefaultPiPort: int := 8554
  const DefaultMaxAgeHours: int := 48
  const OkStatus: int := 200

  const RegisteredKind := "registered"
  const RecordingStartKind := "recording_start"
  const RecordingStopKind := "recording_stop"

  /** `hash_password`: the model keeps the digest symbolic, one digest per plaintext. */
  datatype Digest = Sha256Of(plain: string)

  /** A row of the `cameras` table (the columns this core reads or writes). */
  datatype Camera = Camera(
    name: string,
    piUser: string,
    passHash: Digest,
    piIp: Option<string>,
    piPort: int,
    model: Option<string>,
    online: bool,
    lastSeen: Option<Time>)

  /** A recording process: its id and whether `poll()` would still report it running. */
  datatype Handle = Handle(pid: nat, alive: bool)

  /** A row of the `events` table. */
  datatype Event = Event(cameraId: CamId, kind: string, message: string, timestamp: Time)

  datatype Coordinator = Coordinator(
    cameras: map<CamId, Camera>,
    lastId: nat,                       // the AUTOINCREMENT high-water mark
    procs: map<CamId, Handle>,         // recording_processes
    events: seq<Event>,
    passwords: map<string, string>,    // _pi_passwords: pi_user -> plaintext
    recordings: Retention.Store,       // RECORDINGS_DIR
    maxAgeHours: int,                  // MAX_AGE_HOURS
    healthRunning: bool)               // the health-check thread is still looping

  /** What no HTTP handler changes: the recordings directory, the retention limit and the health thread. */
  predicate KeepsRuntime(before: Coordinator, after: Coordinator)
  {
    after.recordings == before.recordings && after.maxAgeHours == before.maxAgeHours
    && after.healthRunning == before.healthRunning
  }

  /** An HTTP reply: 200 with an optional `camera_id`, or an error status with its message. */
  datatype Response = Ok(cameraId: Option<CamId>) | Error(status: int, message: string)

  datatype Outcome = Outcome(state: Coordinator, response: Response)

  /** No two rows share a `pi_user` (the column is `UNIQUE`). */
  predicate UniqueUsers(cams: map<CamId, Camera>)
  {
    forall a, b :: a in cams && b in cams && cams[a].piUser == cams[b].piUser ==> a == b
  }

  /** Every row id has been handed out by the autoincrement counter. */
  predicate IdsIssued(c: Coordinator)
  {
    forall id :: id in c.cameras ==> 1 <= id <= c.lastId
  }

  /** The database invariants the coordinator's queries rely on. */
  predicate Wf(c: Coordinator)
  {
    UniqueUsers(c.cameras) && IdsIssued(c)
  }

  /**
    What the sqlite file holds across restarts: the camera rows, the
    autoincrement high-water mark and the event rows. `init_db` creates the
    tables only if they do not exist, so a restart keeps all three.
   */
  datatype Database = Database(cameras: map<CamId, Camera>, lastId: nat, events: seq<Event>)

  const EmptyDatabase := Database(map[], 0, [])

  /** The invariants a database left by an earlier run satisfies. */
  predicate DatabaseWf(db: Database)
  {
    UniqueUsers(db.cameras) && forall id :: id in db.cameras ==> 1 <= id <= db.lastId
  }

  /**
    Server start-up over the database file as it is: the rows persist
    unchanged (`is_online` included, until the first probe), while the
    in-memory process table and plaintext password cache start empty and
    the health thread runs.
   */
  function Boot(db: Database, recordings: Retention.Store, maxAgeHours: int): (c: Coordinator)
    requires DatabaseWf(db)
    ensures Wf(c)
    ensures c.cameras == db.cameras && c.lastId == db.lastId && c.events == db.events
    ensures c.procs == map[] && c.passwords == map[]
    ensures c.recordings == recordings && c.maxAgeHours == maxAgeHours && c.healthRunning
  {
    Coordinator(db.cameras, db.lastId, map[], db.events, map[], recordings, maxAgeHours, true)
  }

  /** A first start on a new file has empty tables. */
  lemma FirstBootIsEmpty(recordings: Retention.Store, maxAgeHours: int)
    ensures var c := Boot(EmptyDatabase, recordings, maxAgeHours);
      c.cameras == map[] && c.events == [] && c.procs == map[] && c.passwords == map[] && Wf(c)
  {
  }

  /**
    After a restart no camera has a cached plaintext and none is recording,
    whatever the rows say: the cache is only refilled by a new
    registration or an update that carries a password.
   */
  lemma RestartForgetsSecrets(db: Database, recordings: Retention.Store, maxAgeHours: int, id: CamId)
    requires DatabaseWf(db) && id in db.cameras
    ensures var c := Boot(db, recordings, maxAgeHours);
      && id in c.cameras && c.cameras[id] == db.cameras[id]
      && db.cameras[id].piUser !in c.passwords
      && !IsRecording(c.procs, id)
  {
  }

  /** A camera has a recording that `poll()` reports as still running. */
  predicate IsRecording(procs: map<CamId, Handle>, cam: CamId)
  {
    cam in procs && procs[cam].alive
  }

  /** `_log_event`: one row appended at the end, nothing else touched. */
  function LogEvent(c: Coordinator, cam: CamId, kind: string, message: string, now: Time): (r: Coordinator)
    ensures |r.events| == |c.events| + 1 && r.events[..|c.events|] == c.events
    ensures r.events[|c.events|] == Event(cam, kind, message, now)
    ensures r.(events := c.events) == c
  {
    c.(events := c.events + [Event(cam, kind, message, now)])
  }

  /** `get_camera_by_user`: the row whose `pi_user` is `user`, if any. */
  function CameraByUser(cams: map<CamId, Camera>, user: string): (r: Option<CamId>)
    requires UniqueUsers(cams)
    ensures r.Some? <==> exists id :: id in cams && cams[id].piUser == user
    ensures r.Some? ==> r.value in cams && cams[r.value].piUser == user
  {
    if exists id :: id in cams && cams[id].piUser == user then
      var id :| id in cams && cams[id].piUser == user;
      Some(id)
    else
      None
  }

  /**
    The events table without one camera's rows (`DELETE FROM events WHERE
    camera_id = ?`): every other row keeps its multiplicity. (The rows also
    keep their relative order; the contract states only the multiset.)
   */
  function EventsExcept(s: seq<Event>, cam: CamId): (r: seq<Event>)
    ensures forall e :: multiset(r)[e] == if e.cameraId == cam then 0 else multiset(s)[e]
    decreases |s|
  {
    if |s| == 0 then []
    else
      assert s == [s[0]] + s[1..];
      if s[0].cameraId == cam then EventsExcept(s[1..], cam)
      else [s[0]] + EventsExcept(s[1..], cam)
  }
}
